=== FILE: README.md ===
# Index logic of a Hilbert-curve / FFT image compressor

This project models the integer and index logic of a small image-compression experiment. Its `main`:

- copies an image's pixels, inline, into the order of a space-filling curve;
- takes the Fourier transform of the whole buffer;
- for each frame of an animation, zeroes a growing tail of the spectrum and transforms back.

The `Image` class also defines `hilbTo1d`, `hilbTo2d`, `segmentRaw` (which cuts the curve-ordered buffer into segments) and the `Segment` constructor (which samples a segment as YCbCr planes), but `main` calls none of them. They are modelled as written, as the library the experiment builds on.

The model has these modules:

- `Gilbert` (gilbert.dfy): `recgilbert` / `gilbidx`, the generalized Hilbert ("gilbert") curve over an arbitrary width x height rectangle. It also models the helpers `sign` and `in_bounds`. An explicit inverse, `Locate`, follows the same recursion by rank. With it the curve is proved to be a bijection from the grid onto [0, width * height).
- `HilbertIndex` (hilbidx.dfy): `hilbidx`, the classic power-of-two Hilbert loop. Its result is proved to lie in [0, 4^n). An inverse, `Unwind`, proves it a bijection on [0, 4^n).
- `Bits` (bits.dfy): the grid `Cell`, powers of two, the bits of an integer and small division facts, shared by the other modules.
- `Fft` (fft.dfy): the index structure of the radix-2 and Bluestein transforms. This covers `is_pow_two`, `revbits` and the bit-reversal scatter, the butterfly index ranges, the twiddle table, Bluestein's padded length and the wrap-around chirp slots, plus the lengths of `FFT`, `IFFT` and `IFFT_ip`. Element arithmetic is a parameter record `Ops<T>`, so the model says where each value is read and written, not what the complex numbers are.
- `Linearize` (linearize.dfy): `Image::hilbTo1d` and `Image::hilbTo2d` as functions on sequences. The round trip holds in both directions.
- `Segmenting` (segments.dfy): `Image::segmentRaw` and the `Segment` constructor. It covers the segments' tiling and count, the plane sizes, the sample positions, and the constructor's error cases. Both findings below are modelled here.
- `Truncation` (truncation.dfy): the frame loop of `main`. Each frame zeroes the spectrum from the cutoff size - size * i / frames on. Because the cutoff only falls, frame i sees the original spectrum truncated at its own cutoff.

The model follows the code where it departs from what its names suggest:

- `is_pow_two(0)` is true.
- `hilbidx` consumes the index with truncating division, which is modelled as written for negative indices too.
- `segmentRaw` overwrites the `segLen` member with the clipped length of the last segment.

## Model

| member | source | states |
|---|---|---|
| Gilbert.SignFacts | include/hilbert.h:34-38 | `sign` (Gilbert.Sign) is -1, 0 or 1; sign(v) * v is the absolute value of v; it is 0 exactly for 0 |
| Gilbert.InBoundsSpans | include/hilbert.h:40-64 | `in_bounds` (Gilbert.InBounds) holds iff x is in [x_s, x_s + dx) when dx >= 0 or in (x_s + dx, x_s] when dx < 0, and likewise for y; dx = 0 or dy = 0 always gives false |
| Gilbert.AxialStep | include/hilbert.h:83-94 | on an axis-aligned block dx and dy are -1, 0 or 1, so the product-free step of the base cases equals dx * (x_dst - x) and dy * (y_dst - y) |
| Gilbert.LineRank | include/hilbert.h:86-94 | on a block one cell high or one cell wide, the signed direction times the offset of the destination equals its distance from the start, which is below the block's area |
| Gilbert.EvenHalfVecCut | include/hilbert.h:96-109 | the halved side, bumped by one unit step when odd, splits the side into two non-empty parts, the first even whenever the side is longer than 2 |
| Gilbert.SplitMajor | include/hilbert.h:104-116 | the wide-block split gives two axis-aligned blocks of the parent's height whose widths are positive, smaller, add up to the parent's width, the first even |
| Gilbert.StandardSides | include/hilbert.h:118-135 | the standard split's three blocks have positive sides smaller than the parent's, fitting together into the parent; the first is even-length when the height exceeds 2 |
| Gilbert.MajorPartition | include/hilbert.h:110-115 | a cell is in the block iff it is in exactly one of the two parts of the wide-block split |
| Gilbert.StandardPartition | include/hilbert.h:124-135 | a cell is in the block iff it is in exactly one of the three parts of the standard split |
| Gilbert.MajorAreas | include/hilbert.h:114-115 | the index skipped over the first part is its cell count; both parts are smaller than the block and their areas add up to its area |
| Gilbert.StandardAreas | include/hilbert.h:128-135 | the two skipped counts are the cell counts of the first and middle parts; all three parts are smaller and their areas add up to the block's |
| Gilbert.RecGilbert | include/hilbert.h:66-136 | for a destination inside the block the rank lies in [cur_idx, cur_idx + width * height); every recursive call is on a block of smaller area |
| Gilbert.Descend | include/hilbert.h:104-135 | the block recursed into is smaller, contains the destination, and its index range lies inside the parent's range |
| Gilbert.RankOfLocate | include/hilbert.h:66-136 | the rank of the k-th cell of the inverse walk is cur_idx + k |
| Gilbert.LocateCovers | include/hilbert.h:66-136 | every cell of a block is the k-th cell of the inverse walk for some k below the block's area |
| Gilbert.LocateOfRank | include/hilbert.h:66-136 | a rank cur_idx + k of a cell of the block has k below the area, and the k-th cell of the inverse walk is that cell |
| Gilbert.Grid | include/hilbert.h:138-141 | the starting block runs along the longer side, is axis-aligned, has area width * height and contains exactly the cells of the grid |
| Gilbert.GilbIdx | include/hilbert.h:138-141 | every cell of the grid gets a rank in [0, width * height) |
| Gilbert.GilbCellOfIdx | include/hilbert.h:138-141 | the cell at the rank of (x, y) is (x, y) |
| Gilbert.GilbIdxOfCell | include/hilbert.h:138-141 | every rank in [0, width * height) is the rank of some grid cell |
| Gilbert.GilbIdxInjective | include/hilbert.h:138-141 | two grid cells with the same rank are the same cell |
| HilbertIndex.HilbStep | include/hilbert.h:11-26 | one iteration takes a cell of the s x s square to a cell of the 2s x 2s square |
| HilbertIndex.Turn | include/hilbert.h:11-26 | the loop body moves a cell of the s x s square into the 2s x 2s square, and UnStep of the new cell gives back the old cell and the two index bits t mod 4 it consumed |
| HilbertIndex.HilbRunBounds | include/hilbert.h:10-29 | after the iterations up to n, 0 <= x, y < 2^n, whatever the index |
| HilbertIndex.HilbIdx | include/hilbert.h:4-32 | the result packs the final cell, which lies in the 2^n square, as x + y * 2^n, so it lies in [0, 4^n) |
| HilbertIndex.UnStepOfStep | include/hilbert.h:11-26 | the quadrant of the stepped cell and undoing the reflection give back the cell and the two low bits of t |
| HilbertIndex.StepOfUnStep | include/hilbert.h:11-26 | every cell of the 2s x 2s square is one step from a cell of the s x s square, with the recovered two bits |
| HilbertIndex.UnwindOfRun | include/hilbert.h:10-29 | unwinding the cell reached from a start cell with an index t below 4^(n-i) gives back both |
| HilbertIndex.RunOfUnwind | include/hilbert.h:10-29 | every cell of the 2^n square is reached from the unwound start cell and index, the index below 4^(n-i) |
| HilbertIndex.HilbRankOfIdx | include/hilbert.h:4-32 | unpacking and unwinding the result for an index in [0, 4^n) gives the index back, so distinct indices give distinct results |
| HilbertIndex.HilbIdxOfRank | include/hilbert.h:4-32 | every value in [0, 4^n) is the result for some index in [0, 4^n) |
| Fft.IsPowTwoIff | include/fft.h:5-11 | `is_pow_two(a)` (Fft.IsPowTwo) holds iff a <= 1 or a is 2 to the power log2(a) |
| Fft.LogOfPow2 | include/fft.h:25-26 | for n = 2^k the bit count used for reversal is k |
| Fft.RevBits | include/fft.h:13-20 | the result is below 2^k and its bit j is bit k-1-j of a |
| Fft.RevBitsLowBits | include/fft.h:13-20 | the result depends only on the low k bits of a |
| Fft.RevBitsInvolution | include/fft.h:13-20 | reversing twice gives back every a in [0, 2^k) |
| Fft.RevBitsInjective | include/fft.h:13-20 | distinct values in [0, 2^k) have distinct reversals |
| Fft.Scatter | include/fft.h:28-32 | the scatter writes data[i] to slot revbits(i) for every i, and its result is the bit-reversal permutation of the input |
| Fft.TwiddleStride | include/fft.h:34-47 | the table holds n/2 = half * step roots; the entry j * step read for offset j of a batch lies inside it, and its angle (j * step) / n is j / len |
| Fft.PassShapeOfStage | include/fft.h:38-41 | at stage s of a 2^k-point transform, len = 2^s, half = 2^(s-1) and step = n / len = 2^(k-s), with n = 2 * half * step |
| Fft.ButterflyIndices | include/fft.h:38-47 | for batch t and j < half: evenIdx < oddIdx < batchPtr + len <= n, and the twiddle index j * step is below n/2 |
| Fft.PassAt | include/fft.h:38-56 | slot batchPtr + j after a pass holds the butterfly of batch batchPtr, position j |
| Fft.ButterflyBatch | include/fft.h:43-54 | the inner loop replaces the batch's len slots by their butterflies of the old values and leaves every other slot unchanged |
| Fft.ButterflyLocal | include/fft.h:43-54 | a butterfly reads only the slots of its own batch |
| Fft.ButterflyPass | include/fft.h:39-55 | the batch loop computes the whole pass |
| Fft.RunFftIp | include/fft.h:22-59 | scatter followed by one pass per stage computes `FFT_ip` |
| Fft.FftIp | include/fft.h:22-59 | the in-place transform keeps the length (an empty input gives an empty result) |
| Fft.IfftIp | include/fft.h:72-79 | the inverse in-place transform keeps the length |
| Fft.BluesteinExp | include/fft.h:87-88 | m = 2^e is at least 2n - 1 and no smaller power of two is |
| Fft.BluesteinLength | include/fft.h:87-88 | the doubling loop ends with m = 2^BluesteinExp(n), a power of two |
| Fft.WrapSlots | include/fft.h:94-100 | the wrap slots m - i for 1 <= i < n lie in [n, m) and are pairwise distinct, so they never overwrite b[0..n) |
| Fft.FillChirps | include/fft.h:92-100 | the chirp loop fills a with the weighted input padded with zeros and b with the chirp at slots i and m - i, zeros elsewhere |
| Fft.Fft | include/fft.h:81-116 | the result has the input's length (empty for empty input) and is `FFT_ip` for a power-of-two length |
| Fft.Ifft | include/fft.h:63-70 | the inverse transform keeps the length |
| Linearize.RasterSlot | src/main.cpp:177-181 | the raster slot copied into each curve slot lies in the buffer |
| Linearize.CurveSlot | src/main.cpp:190-194 | the curve slot copied into each raster slot lies in the buffer |
| Linearize.HilbTo1d | src/main.cpp:173-185 | the curve-ordered buffer has the raster's length; the sample each slot receives is stated by Linearize.HilbTo1dCopies |
| Linearize.HilbTo2d | src/main.cpp:187-198 | the rebuilt raster has the curve buffer's length; the sample each slot receives is stated by Linearize.HilbTo2dCopies |
| Linearize.HilbTo1dCopies | src/main.cpp:173-185 | the write index channels * gilbidx(x, y) + k is below rawLength, and it receives channel k of pixel (x, y) |
| Linearize.HilbTo2dCopies | src/main.cpp:187-198 | the raster slot of channel k of pixel (x, y) receives curve slot channels * gilbidx(x, y) + k |
| Linearize.CurveOfRaster | src/main.cpp:177-194 | the curve slot read for a raster slot is copied from that same raster slot |
| Linearize.RasterOfCurve | src/main.cpp:177-194 | the raster slot read for a curve slot is the one that curve slot is read back into |
| Linearize.HilbTo2dOfHilbTo1d | src/main.cpp:173-198 | `hilbTo2d` after `hilbTo1d` leaves the raster unchanged |
| Linearize.HilbTo1dOfHilbTo2d | src/main.cpp:173-198 | `hilbTo1d` after `hilbTo2d` gives back the curve-ordered buffer |
| Segmenting.SegmentRaw | src/main.cpp:130-141 | the loop creates the reference spans, counts them, leaves `segLen` equal to the last span's length, and every span is non-empty and constructed with the scales 1 and 16, with the reference constructor's outcome |
| Segmenting.CutSpans | src/main.cpp:132-139 | the spans cut are the reference tiling, each non-empty and starting at 0 or later, their number is the count, and `segLen` ends as the last span's length |
| Segmenting.ConstructAll | src/main.cpp:137 | entry m is the constructor's outcome for span m, with yScale 1 and cScale 16 |
| Segmenting.SegmentsTile | src/main.cpp:134-139 | the segments start at 0, each starts where the previous ends, all but the last have length segLen, and the last is non-empty, at most segLen, and ends at rawLength |
| Segmenting.SegmentAt | src/main.cpp:134-139 | segment m starts at m * segLen and has length min(segLen, rawLength - start) |
| Segmenting.SegmentCount | src/main.cpp:134-139 | there are ceil(rawLength / segLen) segments |
| Segmenting.SegmentsCover | src/main.cpp:134-139 | every slot of [0, rawLength) lies in some segment |
| Segmenting.SegmentsDisjoint | src/main.cpp:134-139 | each segment ends before any later one starts |
| Segmenting.SegmentStartsAbove | src/main.cpp:134-139 | no segment is empty or starts before slot 0 |
| Segmenting.PositionAt | src/main.cpp:47-51 | sample m of a plane is taken at index + m * step, inside [index, index + segLen) |
| Segmenting.PositionCount | src/main.cpp:47-51 | a plane takes ceil(segLen / step) samples |
| Segmenting.FillPlane | src/main.cpp:47-54 | the sampling loop succeeds iff every read is inside the buffer, and then appends one converted pixel per position to the resized plane |
| Segmenting.Construct | src/main.cpp:39-55 | the constructor's steps give the reference segment: an error for an empty buffer (the `throw`), an error for a read past the buffer, else the three planes |
| Segmenting.NewSegment | src/main.cpp:39-55 | construction fails with the empty-buffer error exactly when the buffer is empty (the `throw`); a constructed segment's Cb and Cr have equal lengths and Y is at least as long as its resized prefix |
| Segmenting.PlaneSizes | src/main.cpp:40-53 | Y holds segLen/yScale + ceil(segLen / (channels * yScale)) samples, Cb and Cr likewise with cScale, and the first segLen/yScale of Y are zero |
| Segmenting.LumaSample | src/main.cpp:47-48 | the m-th appended luma sample converts the pixel at index + m * channels * yScale, which lies in the buffer |
| Segmenting.AlignedReadsInSegment | src/main.cpp:47-53 | when segLen is a multiple of channels (at least 3) and positions advance by a multiple of channels, every read p, p+1, p+2 stays below index + segLen |
| Segmenting.SegmentInside | src/main.cpp:47-53 | every sample of a whole-pixel segment that lies in the buffer reads inside the buffer, whatever the scale |
| Segmenting.UnalignedReadsPastEnd | src/main.cpp:130-139 | a 12291-slot buffer cut every 12289 slots has a second segment [12289, 12291) whose luma read passes the end |
| Segmenting.AlignedSegLen | src/main.cpp:131 | the corrected segment length is positive and a whole number of pixels |
| Segmenting.SegmentsAligned | src/main.cpp:134-139 | with a whole-pixel length over a whole-pixel buffer, every segment starts and ends on a pixel boundary inside the buffer |
| Segmenting.AlignedSegmentsConstruct | src/main.cpp:130-139 | with the corrected length, constructing every segment with the scales 1 and 16 succeeds |
| Segmenting.ResizedPlaneHasPrefix | src/main.cpp:39-49 | for a one-pixel segment the luma plane holds four samples, the first a default one and the last the pixel's luma |
| Segmenting.NewSegmentReserved | src/main.cpp:39-55 | with reserved planes, Y and Cb hold exactly ceil(segLen / (channels * scale)) samples, and construction succeeds exactly when the original one does |
| Segmenting.ReservedDropsPrefix | src/main.cpp:39-55 | the reserved planes are the resized ones without their default prefix |
| Truncation.CutoffAtStart | src/main.cpp:236-237 | at frame 0 the cutoff size - size * i / frames (Truncation.Cutoff) is the full size, so nothing is zeroed |
| Truncation.CutoffRange | src/main.cpp:236-237 | before the last frame the cutoff of a non-empty spectrum lies in [1, size] |
| Truncation.CutoffMonotone | src/main.cpp:234-237 | the cutoff never rises from one frame to a later one |
| Truncation.ZeroTail | src/main.cpp:237-239 | entries below the cutoff are unchanged and, for a cutoff of 0 or more, entries from the cutoff on become zero; a negative cutoff, compared with the unsigned size, zeroes nothing |
| Truncation.ZeroFromTwice | src/main.cpp:235-240 | zeroing from two cutoffs in turn zeroes from the smaller one |
| Truncation.FrameSpectra | src/main.cpp:233-240 | the spectrum handed to the inverse transform in frame i is the original one zeroed from frame i's cutoff |
| Truncation.FirstFrameUntouched | src/main.cpp:233-237 | the first of the 1200 frames sees the untouched spectrum |

## Left out

- include/threadpool.h is concurrency (threads, mutex, condition variable, futures) and is not part of this model.
- src/fftwrap.cpp and include/fftwrap.hpp are not part of this model. They wrap FFTW, whose behaviour is not visible; `main` transforms through them, not through include/fft.h.
- Floating point is not modelled:
  - twiddle and chirp values, the products and the division by N;
  - the YCbCr coefficients, which are a parameter `Convert<T>`;
  - the square root in the segment length, which is a parameter;
  - `abs` and `clamp` of the reconstructed samples.
- I/O is not modelled: `loadImage`, `savePPM`, the frame file names and console output.
- The empty `saveNift` and `rejoinSegments` stubs, and the commented-out compression code, have no behaviour to model.
- The copy loop in `main` (src/main.cpp:214-223) is the same index map as `hilbTo1d` and is covered by Linearize.HilbTo1d.
- The restore loop in `main` (src/main.cpp:244-254) uses the same index map as `hilbTo2d`; its values are floating point.
- Fixed-width integers are unbounded here. This covers:
  - `int` / `long` overflow in the curve and raster index arithmetic;
  - `1 << i` for i >= 31 in `revbits`;
  - wrap-around of `size_t` sums.
- Fft.FftIp: states only the length and the exact index structure of the passes. That the result is the discrete Fourier transform is a statement about complex arithmetic, which is a parameter here.
- Fft.Fft: states only the length, and equality with `FFT_ip` for a power-of-two length. That the chirp-z (Bluestein) branch computes the discrete Fourier transform is a statement about complex arithmetic, which is a parameter here; the branch's index structure is stated by Fft.BluesteinLength, Fft.WrapSlots and Fft.FillChirps.
- Fft.Ifft: the length only; that it inverts `FFT` is a floating-point property and is not proved.
- Fft.IfftIp: the length only, for the same reason.
- Fft.RevBits: the bit count is a natural number; a negative count makes the source loop do nothing, which is not modelled.
- HilbertIndex.HilbIdx: sidePow is a natural number, because a negative shift in `y << sidePow` is undefined.
- Gilbert.RecGilbert: requires an axis-aligned block with non-zero sides. Those are the only blocks `gilbidx` creates and the recursion keeps.
- Gilbert.GilbIdx: requires width and height of at least 1. With exactly one zero side the source returns a rank with no meaning, and with both sides zero its standard branch calls itself with the same arguments forever. `hilbTo1d` never passes a zero side.
- Segmenting.SegmentRaw: requires a positive segment length when the buffer is non-empty, since a zero length never advances `i` (a negative one cannot come from the square root), and at least one channel, since otherwise the constructor's sampling loops never end.
- Segmenting.SegmentRaw: the source stops at the first construction that fails, because the bare `throw` terminates the program and a read past the buffer is undefined behaviour. The model records the outcome of every span instead.
- Linearize.HilbTo1d: both buffers hold exactly width * height * channels samples, the length loading sets up. `loadImage` asks the image library for 3 components but stores the file's own channel count; that mismatch is not modelled.

## Findings

| source | as written | input that shows it | evidently intended | confidence | as-written member | corrected member |
|---|---|---|---|---|---|---|
| src/main.cpp:131 | the segment length 64 * channels * sqrt(length), truncated to `long`, need not be a multiple of `channels`, yet every sample reads three slots from its position, so the last segment's last sample can read past the buffer (when its position p has p + 2 >= rawLength); the defect is latent, since `main` never calls `segmentRaw` | calling `hilbTo1d` and then `segmentRaw` on a 4097 x 1 image with 3 channels: rawLength 12291, segLen 12289; the second segment [12289, 12291) reads slot 12291 | a segment length of whole pixels, so every read stays inside its own segment | medium, not executed | Segmenting.UnalignedReadsPastEnd | Segmenting.AlignedSegmentsConstruct |
| src/main.cpp:40-42 | `resize(segLen / scale)` followed by `push_back` leaves segLen / scale default samples in front of the converted ones | a one-pixel segment (3 slots, index 0): Y holds 4 samples, the first three zero | reserving capacity, so each plane holds only its samples | medium, not executed | Segmenting.ResizedPlaneHasPrefix | Segmenting.NewSegmentReserved |

=== FILE: bits.dfy ===
/**
 * Powers of two, the bits of an integer and small division facts, shared
 * by the bit-reversal of include/fft.h, the power-of-two curve of
 * include/hilbert.h and the index arithmetic of src/main.cpp, and the
 * grid cell that both curves of include/hilbert.h produce.
 */
module Bits {

  /** A grid cell, shared by both curves and the raster order. */
  datatype Cell = Cell(x: int, y: int)

  function Min(a: int, b: int): int
  {
    if a <= b then a else b
  }

  function Pow2(k: nat): (r: nat)
    ensures r >= 1
  {
    if k == 0 then 1 else 2 * Pow2(k - 1)
  }

  /** Powers of two grow with the exponent. */
  lemma {:induction false} Pow2Monotone(i: nat, k: nat)
    requires i <= k
    ensures Pow2(i) <= Pow2(k)
    ensures i < k ==> 2 * Pow2(i) <= Pow2(k)
    decreases k
  {
    if i < k {
      Pow2Monotone(i, k - 1);
    }
  }

  lemma {:induction false} Pow2Add(i: nat, k: nat)
    ensures Pow2(i + k) == Pow2(i) * Pow2(k)
    decreases i
  {
    if i > 0 {
      Pow2Add(i - 1, k);
      assert Pow2(i + k) == 2 * Pow2(i - 1 + k);
    }
  }

  /**
   * Bit i of a, counted from the least significant; for a negative a this
   * is the bit of its two's complement form, as `a & (1 << i)` tests it.
   */
  function Bit(a: int, i: nat): (r: nat)
    ensures r <= 1
    decreases i
  {
    if i == 0 then a % 2 else Bit(a / 2, i - 1)
  }

  /** The quotient and remainder of a division are the only such pair. */
  lemma DivModUnique(a: int, d: int, q: int, r: int)
    requires d > 0 && a == d * q + r && 0 <= r < d
    ensures a / d == q && a % d == r
  {
    var q0, r0 := a / d, a % d;
    assert d * q0 + r0 == d * q + r;
    assert d * (q0 - q) == r - r0;
    if q0 > q {
      MulAtLeast(d, q0 - q);
    } else if q0 < q {
      MulAtLeast(d, q - q0);
    }
  }

  /** A number is its quotient times the divisor plus its remainder. */
  lemma DivModSplit(a: int, d: int)
    requires d > 0
    ensures a == (a / d) * d + a % d
  {
  }

  lemma MulAtLeast(d: int, n: int)
    requires d > 0 && n >= 1
    ensures d * n >= d
  {
  }

  /** Halving commutes with the remainder modulo an even number. */
  lemma HalfOfMod(a: int, p: int)
    requires p >= 1
    ensures (a % (2 * p)) % 2 == a % 2
    ensures (a % (2 * p)) / 2 == (a / 2) % p
  {
    var q, r := a / (2 * p), a % (2 * p);
    assert a == 2 * (p * q) + r;
    DivModUnique(a, 2, p * q + r / 2, r % 2);
    DivModUnique(a / 2, p, q, r / 2);
  }

  /** Bits below k survive the remainder modulo 2^k. */
  lemma {:induction false} BitOfMod(a: int, k: nat, i: nat)
    requires i < k
    ensures Bit(a % Pow2(k), i) == Bit(a, i)
    decreases i
  {
    HalfOfMod(a, Pow2(k - 1));
    if i > 0 {
      BitOfMod(a / 2, k - 1, i - 1);
    }
  }

  /** Two numbers below 2^k with the same k low bits are equal. */
  lemma {:induction false} BitsDetermine(x: int, y: int, k: nat)
    requires 0 <= x < Pow2(k) && 0 <= y < Pow2(k)
    requires forall j :: 0 <= j < k ==> Bit(x, j) == Bit(y, j)
    ensures x == y
    decreases k
  {
    if k > 0 {
      forall j | 0 <= j < k - 1
        ensures Bit(x / 2, j) == Bit(y / 2, j)
      {
        assert Bit(x, j + 1) == Bit(y, j + 1);
      }
      BitsDetermine(x / 2, y / 2, k - 1);
      assert Bit(x, 0) == Bit(y, 0);
    }
  }

  /** A number below 2^k has no bit set at position k or above. */
  lemma {:induction false} BitAbove(x: int, k: nat, i: nat)
    requires 0 <= x < Pow2(k) && k <= i
    ensures Bit(x, i) == 0
    decreases k
  {
    if k == 0 {
      BitOfZero(i);
    } else if i > 0 {
      BitAbove(x / 2, k - 1, i - 1);
    }
  }

  lemma {:induction false} BitOfZero(i: nat)
    ensures Bit(0, i) == 0
  {
    if i > 0 {
      BitOfZero(i - 1);
    }
  }

  lemma MulLe(a: int, b: int, c: int)
    requires a <= b && c >= 0
    ensures a * c <= b * c
  {
  }

  lemma MulLt(a: int, b: int, c: int)
    requires a < b && c > 0
    ensures a * c < b * c
  {
  }

  /** A number below d * q has a quotient by d below q. */
  lemma DivBelow(x: int, d: int, q: int)
    requires d > 0 && 0 <= x < d * q
    ensures 0 <= x / d < q
  {
    if x / d >= q {
      MulLe(q, x / d, d);
    }
  }
}

=== FILE: fft.dfy ===
/**
 * The index structure of the radix-2 and Bluestein transforms of
 * include/fft.h.  The complex arithmetic is not modelled: the element type
 * is a parameter `T`, and the operations the transform applies to elements
 * (sum, difference, product, conjugate, division by the length, the unit
 * roots) are supplied as an `Ops<T>` record.  What is proved is where every
 * value is read from and written to, and the lengths of the results.
 */
module Fft {
  import opened Bits

  /** Models `is_pow_two` (fft.h:5-11): halve while above 1, failing on an odd value. */
  function IsPowTwo(a: int): bool
    decreases a
  {
    if a > 1 then (if a % 2 == 1 then false else IsPowTwo(a / 2)) else true
  }

  /** The floor of the base-two logarithm of a positive number (0 below 2). */
  function Log2(a: int): (e: nat)
    ensures a >= 1 ==> Pow2(e) <= a < 2 * Pow2(e)
    decreases a
  {
    if a <= 1 then 0 else 1 + Log2(a / 2)
  }

  /** `is_pow_two` holds exactly for the numbers up to 1 and the powers of two. */
  lemma {:induction false} IsPowTwoIff(a: int)
    ensures IsPowTwo(a) <==> a <= 1 || a == Pow2(Log2(a))
    decreases a
  {
    if a > 1 {
      IsPowTwoIff(a / 2);
      if a % 2 == 0 && a / 2 > 1 {
        assert Pow2(Log2(a)) == 2 * Pow2(Log2(a / 2));
      }
    }
  }

  lemma IsPowTwoOfPow2(k: nat)
    ensures IsPowTwo(Pow2(k)) && Log2(Pow2(k)) == k
  {
    Pow2Monotone(0, k);
    LogOfPow2(k);
    IsPowTwoIff(Pow2(k));
  }

  lemma {:induction false} LogOfPow2(k: nat)
    ensures Log2(Pow2(k)) == k
  {
    if k > 0 {
      LogOfPow2(k - 1);
      assert Pow2(k) / 2 == Pow2(k - 1);
    }
  }

  /**
   * Models `revbits` (fft.h:13-20): the k low bits of a in reverse order.
   * Each loop step shifts the result left and appends bit i of a, so bit j
   * of the result is bit k-1-j of a.
   */
  function RevBits(a: int, k: nat): (r: nat)
    ensures r < Pow2(k)
    ensures forall j :: 0 <= j < k ==> Bit(r, j) == Bit(a, k - 1 - j)
  {
    if k == 0 then 0 else 2 * RevBits(a, k - 1) + Bit(a, k - 1)
  }

  /** Only the k low bits of a matter. */
  lemma RevBitsLowBits(a: int, k: nat)
    ensures RevBits(a, k) == RevBits(a % Pow2(k), k)
  {
    forall j | 0 <= j < k
      ensures Bit(RevBits(a, k), j) == Bit(RevBits(a % Pow2(k), k), j)
    {
      BitOfMod(a, k, k - 1 - j);
    }
    BitsDetermine(RevBits(a, k), RevBits(a % Pow2(k), k), k);
  }

  /** Reversing the k low bits twice gives back any number below 2^k. */
  lemma RevBitsInvolution(a: int, k: nat)
    requires 0 <= a < Pow2(k)
    ensures RevBits(RevBits(a, k), k) == a
  {
    forall j | 0 <= j < k
      ensures Bit(RevBits(RevBits(a, k), k), j) == Bit(a, j)
    {
      assert Bit(RevBits(a, k), k - 1 - j) == Bit(a, j);
    }
    BitsDetermine(RevBits(RevBits(a, k), k), a, k);
  }

  /** The reversal is a permutation of [0, 2^k). */
  lemma RevBitsInjective(a: int, b: int, k: nat)
    requires 0 <= a < Pow2(k) && 0 <= b < Pow2(k) && RevBits(a, k) == RevBits(b, k)
    ensures a == b
  {
    RevBitsInvolution(a, k);
    RevBitsInvolution(b, k);
  }

  /** The data in bit-reversed order: slot j holds element RevBits(j). */
  function BitReversed<T>(data: seq<T>, k: nat): (r: seq<T>)
    requires |data| == Pow2(k)
    ensures |r| == |data|
  {
    seq(|data|, j requires 0 <= j < |data| => data[RevBits(j, k)])
  }

  /**
   * The scatter loop of `FFT_ip` (fft.h:28-32): element i is written to
   * slot RevBits(i).  Every write is in range and no write is overwritten,
   * so every slot is written exactly once and the result is the data in
   * bit-reversed order.
   */
  method Scatter<T>(data: seq<T>, k: nat) returns (result: seq<T>)
    requires |data| == Pow2(k)
    ensures |result| == |data|
    ensures forall i :: 0 <= i < |data| ==> result[RevBits(i, k)] == data[i]
    ensures result == BitReversed(data, k)
  {
    result := data;
    var i := 0;
    while i < |data|
      invariant 0 <= i <= |data| && |result| == |data|
      invariant forall i' :: 0 <= i' < i ==> result[RevBits(i', k)] == data[i']
    {
      ScatterStep(result, data, i, k);
      result := result[RevBits(i, k) := data[i]];
      i := i + 1;
    }
    ScatteredIsBitReversed(result, data, k);
  }

  /** Writing element i to slot RevBits(i) overwrites none of the earlier writes. */
  lemma ScatterStep<T>(result: seq<T>, data: seq<T>, i: nat, k: nat)
    requires |data| == Pow2(k) && |result| == |data| && i < |data|
    requires forall i' :: 0 <= i' < i ==> result[RevBits(i', k)] == data[i']
    ensures forall i' :: 0 <= i' <= i ==> result[RevBits(i, k) := data[i]][RevBits(i', k)] == data[i']
  {
    forall i' | 0 <= i' <= i
      ensures result[RevBits(i, k) := data[i]][RevBits(i', k)] == data[i']
    {
      if i' < i && RevBits(i', k) == RevBits(i, k) {
        RevBitsInjective(i', i, k);
      }
    }
  }

  /** A sequence holding element i at slot RevBits(i) for every i is the data in bit-reversed order. */
  lemma ScatteredIsBitReversed<T>(result: seq<T>, data: seq<T>, k: nat)
    requires |data| == Pow2(k) && |result| == |data|
    requires forall i :: 0 <= i < |data| ==> result[RevBits(i, k)] == data[i]
    ensures result == BitReversed(data, k)
  {
    forall j | 0 <= j < |data|
      ensures result[j] == data[RevBits(j, k)]
    {
      RevBitsInvolution(j, k);
    }
  }

  /**
   * The element operations the transforms apply.  `root(k, n)` is the unit
   * root e^(-2 pi i k / n) of fft.h:36, `chirp(i, n)` the value
   * e^(-pi i i^2 / n) of fft.h:95-96, and `scale(v, n)` is v / n.
   */
  datatype Ops<!T> = Ops(
    add: (T, T) -> T,
    sub: (T, T) -> T,
    mul: (T, T) -> T,
    conj: T -> T,
    scale: (T, nat) -> T,
    zero: T,
    root: (nat, nat) -> T,
    chirp: (nat, nat) -> T)

  /** The twiddle table of `FFT_ip` (fft.h:34-36): entry q is the root of angle q / n. */
  function Twiddles<T>(ops: Ops<T>, n: nat): seq<T>
  {
    seq(n / 2, q requires 0 <= q < n / 2 => ops.root(q, n))
  }

  /**
   * The lengths of a butterfly pass over n entries: pairs `half` apart in
   * batches of len = 2 * half, n / len batches, and the twiddle stride
   * step = n / len into a table of n / 2 roots.
   */
  predicate PassShape(n: nat, half: nat, step: nat)
  {
    half >= 1 && step >= 1 && n == 2 * half * step
  }

  /** Pass s (len = 2^s) over 2^k entries has this shape, with half = 2^(s-1) and step = 2^(k-s). */
  lemma PassShapeOfStage(k: nat, s: nat)
    requires 1 <= s <= k
    ensures PassShape(Pow2(k), Pow2(s - 1), Pow2(k - s))
    ensures Pow2(s) == 2 * Pow2(s - 1) && Pow2(k) / Pow2(s) == Pow2(k - s)
    ensures Pow2(k) / 2 == Pow2(s - 1) * Pow2(k - s)
  {
    Pow2Add(s, k - s);
    Pow2Add(s - 1, k - s);
    DivModUnique(Pow2(k), Pow2(s), Pow2(k - s), 0);
  }

  /**
   * The butterfly indices of a pass (fft.h:38-47): for batch t below the
   * batch count and offset j below half, the even index is below the odd
   * one, both lie in the batch, the batch lies in the data, and the
   * twiddle index j * step is below n/2.
   */
  lemma ButterflyIndices(n: nat, half: nat, step: nat, t: nat, j: nat)
    requires PassShape(n, half, step) && t < step && j < half
    ensures t * (2 * half) + j < t * (2 * half) + j + half < t * (2 * half) + 2 * half <= n
    ensures j * step < n / 2
  {
    BatchInside(t, 2 * half, step);
    MulLt(j, half, step);
  }

  /**
   * The stride into the twiddle table (fft.h:41, 47): offset j of a batch
   * of len = 2 * half reads entry j * step of a table of n / 2 = half * step
   * roots.  The read is inside the table, and the entry's angle
   * (j * step) / n equals j / len, the angle a len-point butterfly needs.
   */
  lemma TwiddleStride<T>(ops: Ops<T>, n: nat, half: nat, step: nat, j: nat)
    requires PassShape(n, half, step) && j < half
    ensures |Twiddles(ops, n)| == half * step
    ensures j * step < |Twiddles(ops, n)| && Twiddles(ops, n)[j * step] == ops.root(j * step, n)
    ensures (j * step) * (2 * half) == j * n
  {
    DivModUnique(n, 2, half * step, 0);
    MulLt(j, half, step);
    assert (j * step) * (2 * half) == j * (2 * half * step);
  }

  /** Batch t of length len lies inside len * count entries when t < count. */
  lemma BatchInside(t: int, len: int, count: int)
    requires 0 <= t < count && len > 0
    ensures t * len + len <= len * count
  {
    MulLe(t + 1, count, len);
  }

  /** The batch holding an index starts at a multiple of len and lies inside the data. */
  lemma BatchOf(idx: int, len: int, count: int)
    requires len > 0 && count >= 0 && 0 <= idx < len * count
    ensures 0 <= idx / len < count && idx % len < len
    ensures idx - idx % len == idx / len * len
    ensures idx - idx % len + len <= len * count
  {
    DivBelow(idx, len, count);
    BatchInside(idx / len, len, count);
  }

  /**
   * The value a pass leaves at offset j of the batch starting at `base`:
   * the sum of the pair's even element and the twiddled odd element in the
   * lower half, their difference in the upper half (fft.h:43-53).
   */
  function Butterfly<T>(a: seq<T>, tw: seq<T>, half: nat, step: nat, ops: Ops<T>, base: nat, j: nat): T
    requires half >= 1 && step >= 1 && |tw| == half * step && base + 2 * half <= |a| && j < 2 * half
  {
    if j < half then
      MulLt(j, half, step);
      ops.add(a[base + j], ops.mul(a[base + j + half], tw[j * step]))
    else
      MulLt(j - half, half, step);
      ops.sub(a[base + j - half], ops.mul(a[base + j], tw[(j - half) * step]))
  }

  /** The whole of a pass, entry by entry. */
  function Pass<T>(a: seq<T>, tw: seq<T>, half: nat, step: nat, ops: Ops<T>): (r: seq<T>)
    requires PassShape(|a|, half, step) && |tw| == half * step
    ensures |r| == |a|
  {
    seq(|a|, idx requires 0 <= idx < |a| =>
      BatchOf(idx, 2 * half, step);
      Butterfly(a, tw, half, step, ops, idx - idx % (2 * half), idx % (2 * half)))
  }

  /** Entry t * len + j of a pass is the butterfly at offset j of batch t. */
  lemma PassAt<T>(a: seq<T>, tw: seq<T>, half: nat, step: nat, ops: Ops<T>, t: nat, j: nat)
    requires PassShape(|a|, half, step) && |tw| == half * step && t < step && j < 2 * half
    ensures t * (2 * half) + 2 * half <= |a|
    ensures Pass(a, tw, half, step, ops)[t * (2 * half) + j] == Butterfly(a, tw, half, step, ops, t * (2 * half), j)
  {
    BatchInside(t, 2 * half, step);
    DivModUnique(t * (2 * half) + j, 2 * half, t, j);
  }

  /**
   * The innermost loop of `FFT_ip` on the batch starting at batchPtr
   * (fft.h:40-54): each pair is read before either of its entries is
   * written, so the batch ends up holding the butterflies of its old
   * contents, and nothing outside the batch changes.
   */
  method ButterflyBatch<T>(r0: seq<T>, tw: seq<T>, half: nat, step: nat, ops: Ops<T>, batchPtr: nat) returns (r: seq<T>)
    requires half >= 1 && step >= 1 && |tw| == half * step && batchPtr + 2 * half <= |r0|
    ensures |r| == |r0|
    ensures forall j :: 0 <= j < 2 * half ==> r[batchPtr + j] == Butterfly(r0, tw, half, step, ops, batchPtr, j)
    ensures forall q :: 0 <= q < |r0| && !(batchPtr <= q < batchPtr + 2 * half) ==> r[q] == r0[q]
  {
    r := r0;
    var j := 0;
    while j < half
      invariant 0 <= j <= half && |r| == |r0|
      invariant forall j' :: 0 <= j' < j ==> r[batchPtr + j'] == Butterfly(r0, tw, half, step, ops, batchPtr, j')
      invariant forall j' :: half <= j' < half + j ==> r[batchPtr + j'] == Butterfly(r0, tw, half, step, ops, batchPtr, j')
      invariant forall q :: 0 <= q < |r0| && !(batchPtr <= q < batchPtr + j) && !(batchPtr + half <= q < batchPtr + half + j) ==> r[q] == r0[q]
    {
      MulLt(j, half, step);
      var evenIdx := batchPtr + j;
      var oddIdx := evenIdx + half;
      var twiddle := tw[j * step];
      var u := r[evenIdx];
      var v := ops.mul(r[oddIdx], twiddle);
      r := r[evenIdx := ops.add(u, v)];
      r := r[oddIdx := ops.sub(u, v)];
      assert r[batchPtr + (half + j)] == Butterfly(r0, tw, half, step, ops, batchPtr, half + j);
      j := j + 1;
    }
  }

  /** Two sequences that agree on a batch give the batch the same butterflies. */
  lemma ButterflyLocal<T>(a: seq<T>, b: seq<T>, tw: seq<T>, half: nat, step: nat, ops: Ops<T>, base: nat, j: nat)
    requires half >= 1 && step >= 1 && |tw| == half * step && base + 2 * half <= |a| && base + 2 * half <= |b| && j < 2 * half
    requires forall q :: base <= q < base + 2 * half ==> a[q] == b[q]
    ensures Butterfly(a, tw, half, step, ops, base, j) == Butterfly(b, tw, half, step, ops, base, j)
  {
  }

  /**
   * The batch loop of one pass (fft.h:39-55): the batches tile the data,
   * so the loop computes the whole pass.
   */
  method ButterflyPass<T>(a: seq<T>, tw: seq<T>, half: nat, step: nat, ops: Ops<T>) returns (r: seq<T>)
    requires PassShape(|a|, half, step) && |tw| == half * step
    ensures r == Pass(a, tw, half, step, ops)
  {
    var n, len := |a|, 2 * half;
    r := a;
    var batchPtr, t := 0, 0;
    while batchPtr < n
      invariant batchPtr == t * len && t <= step && |r| == n
      invariant forall q :: 0 <= q < batchPtr ==> r[q] == Pass(a, tw, half, step, ops)[q]
      invariant forall q :: batchPtr <= q < n ==> r[q] == a[q]
    {
      if t == step {
        assert false;
      }
      BatchInside(t, len, step);
      var r1 := ButterflyBatch(r, tw, half, step, ops, batchPtr);
      forall q | batchPtr <= q < batchPtr + len
        ensures r1[q] == Pass(a, tw, half, step, ops)[q]
      {
        ButterflyLocal(r, a, tw, half, step, ops, batchPtr, q - batchPtr);
        PassAt(a, tw, half, step, ops, t, q - batchPtr);
        assert r1[batchPtr + (q - batchPtr)] == Butterfly(r, tw, half, step, ops, batchPtr, q - batchPtr);
      }
      r := r1;
      batchPtr, t := batchPtr + len, t + 1;
    }
  }

  /** Passes 1 to s of `FFT_ip` applied in turn. */
  function Stages<T>(a: seq<T>, tw: seq<T>, k: nat, s: nat, ops: Ops<T>): (r: seq<T>)
    requires |a| == Pow2(k) && |tw| == Pow2(k) / 2 && s <= k
    ensures |r| == |a|
  {
    if s == 0 then a
    else
      PassShapeOfStage(k, s);
      Pass(Stages(a, tw, k, s - 1, ops), tw, Pow2(s - 1), Pow2(k - s), ops)
  }

  /**
   * Models `FFT_ip` (fft.h:22-59): defined for the lengths `is_pow_two`
   * accepts (the assertion at fft.h:23), with `countr_zero(n)` = log2 n
   * bits reversed.  The result has the input's length.
   */
  function FftIp<T>(data: seq<T>, ops: Ops<T>): (r: seq<T>)
    requires IsPowTwo(|data|)
    ensures |r| == |data|
  {
    if |data| == 0 then []
    else
      IsPowTwoIff(|data|);
      Stages(BitReversed(data, Log2(|data|)), Twiddles(ops, |data|), Log2(|data|), Log2(|data|), ops)
  }

  /**
   * The loops of `FFT_ip` (fft.h:25-58): the scatter, then one butterfly
   * pass per len = 2, 4, ..., n.  They compute `FftIp`.
   */
  method RunFftIp<T>(data: seq<T>, ops: Ops<T>) returns (result: seq<T>)
    requires IsPowTwo(|data|)
    ensures result == FftIp(data, ops)
  {
    var n := |data|;
    if n == 0 {
      return data;
    }
    IsPowTwoIff(n);
    var rotpoint := Log2(n);
    result := Scatter(data, rotpoint);
    var twiddles := Twiddles(ops, n);
    var len, s := 2, 1;
    while len <= n
      invariant 1 <= s && len == Pow2(s) && s <= rotpoint + 1
      invariant result == Stages(BitReversed(data, rotpoint), twiddles, rotpoint, s - 1, ops)
    {
      if s > rotpoint {
        Pow2Monotone(rotpoint, s);
        assert false;
      }
      PassShapeOfStage(rotpoint, s);
      result := ButterflyPass(result, twiddles, len / 2, n / len, ops);
      len, s := len * 2, s + 1;
    }
    if s <= rotpoint {
      Pow2Monotone(s, rotpoint);
      assert false;
    }
  }

  /** Models `IFFT_ip` (fft.h:72-79): conjugate, transform, conjugate and divide by n. */
  function IfftIp<T>(data: seq<T>, ops: Ops<T>): (r: seq<T>)
    requires IsPowTwo(|data|)
    ensures |r| == |data|
  {
    var conjd := seq(|data|, i requires 0 <= i < |data| => ops.conj(data[i]));
    var res := FftIp(conjd, ops);
    seq(|res|, i requires 0 <= i < |res| => ops.scale(ops.conj(res[i]), |data|))
  }

  /**
   * The least e with 2^e >= target, searching upwards from e: the loop
   * `while (m < 2 * n - 1) m <<= 1` of fft.h:87-88 started at m = 2^e.
   */
  function GrowExp(e: nat, target: int): (r: nat)
    ensures r >= e && Pow2(r) >= target
    ensures r == e || Pow2(r - 1) < target
    decreases target - Pow2(e)
  {
    if Pow2(e) < target then GrowExp(e + 1, target) else e
  }

  /**
   * The exponent of Bluestein's padded length m (fft.h:87-88): the
   * smallest power of two that is at least 2n - 1.
   */
  function BluesteinExp(n: nat): (e: nat)
    requires n >= 1
    ensures Pow2(e) >= 2 * n - 1
    ensures forall e' :: 0 <= e' < e ==> Pow2(e') < 2 * n - 1
  {
    var e := GrowExp(0, 2 * n - 1);
    forall e' | 0 <= e' < e
      ensures Pow2(e') < 2 * n - 1
    {
      Pow2Monotone(e', e - 1);
    }
    e
  }

  /** The loop of fft.h:87-88 computes 2^BluesteinExp(n). */
  method BluesteinLength(n: nat) returns (m: nat)
    requires n >= 1
    ensures m == Pow2(BluesteinExp(n)) && IsPowTwo(m)
  {
    m := 1;
    ghost var e := 0;
    while m < 2 * n - 1
      invariant m == Pow2(e) && GrowExp(e, 2 * n - 1) == GrowExp(0, 2 * n - 1)
      decreases 2 * n - 1 - m
    {
      m, e := m * 2, e + 1;
    }
    IsPowTwoOfPow2(e);
  }

  /** The wrap-around slot m - i of chirp i lies past the first n slots (fft.h:99). */
  lemma WrapSlots(n: nat, m: nat, i: nat, i2: nat)
    requires 2 * n - 1 <= m && 1 <= i < n && 1 <= i2 < n
    ensures n <= m - i < m
    ensures m - i == m - i2 ==> i == i2
  {
  }

  /** The padded input of Bluestein's transform: the chirp-weighted data, then zeros (fft.h:92-97). */
  function ChirpInput<T>(data: seq<T>, ops: Ops<T>, m: nat): (a: seq<T>)
    requires |data| <= m
    ensures |a| == m
  {
    seq(m, q requires 0 <= q < m =>
      if q < |data| then ops.mul(data[q], ops.conj(ops.chirp(q, |data|))) else ops.zero)
  }

  /**
   * The chirp filter (fft.h:92-100): chirp q in slot q for q < n, chirp
   * m - q in the wrap-around slots above m - n, zero in between.
   */
  function ChirpFilter<T>(ops: Ops<T>, n: nat, m: nat): (b: seq<T>)
    requires 1 <= n && 2 * n - 1 <= m
    ensures |b| == m
  {
    seq(m, q requires 0 <= q < m =>
      if q < n then ops.chirp(q, n) else if m - n < q then ops.chirp(m - q, n) else ops.zero)
  }

  /**
   * The chirp loop of `FFT` (fft.h:92-100).  Every write lands in range,
   * and no wrap-around write hits one of the first n slots, so the arrays
   * end up as `ChirpInput` and `ChirpFilter` describe.
   */
  method FillChirps<T>(data: seq<T>, ops: Ops<T>, m: nat) returns (a: seq<T>, b: seq<T>)
    requires 1 <= |data| && 2 * |data| - 1 <= m
    ensures a == ChirpInput(data, ops, m)
    ensures b == ChirpFilter(ops, |data|, m)
  {
    var n := |data|;
    a := seq(m, _ => ops.zero);
    b := seq(m, _ => ops.zero);
    var i := 0;
    while i < n
      invariant 0 <= i <= n && |a| == m && |b| == m
      invariant forall q :: 0 <= q < i ==> a[q] == ops.mul(data[q], ops.conj(ops.chirp(q, n)))
      invariant forall q :: i <= q < m ==> a[q] == ops.zero
      invariant forall q :: 0 <= q < i ==> b[q] == ops.chirp(q, n)
      invariant forall q :: m - i < q < m ==> b[q] == ops.chirp(m - q, n)
      invariant forall q :: i <= q <= m - i && q < m ==> b[q] == ops.zero
    {
      var w := ops.chirp(i, n);
      a := a[i := ops.mul(data[i], ops.conj(w))];
      b := b[i := w];
      if i != 0 {
        WrapSlots(n, m, i, i);
        b := b[m - i := w];
      }
      i := i + 1;
    }
  }

  /**
   * Models `FFT` (fft.h:81-116): empty for empty input, `FFT_ip` for a
   * power-of-two length, and otherwise Bluestein's transform through two
   * power-of-two transforms of the padded length.  The result always has
   * the input's length.
   */
  function Fft<T>(data: seq<T>, ops: Ops<T>): (r: seq<T>)
    ensures |r| == |data|
    ensures IsPowTwo(|data|) ==> r == FftIp(data, ops)
  {
    var n := |data|;
    if n == 0 then []
    else if IsPowTwo(n) then FftIp(data, ops)
    else
      var m := Pow2(BluesteinExp(n));
      IsPowTwoOfPow2(BluesteinExp(n));
      var fa := FftIp(ChirpInput(data, ops, m), ops);
      var fb := FftIp(ChirpFilter(ops, n, m), ops);
      var c := IfftIp(seq(m, i requires 0 <= i < m => ops.mul(fa[i], fb[i])), ops);
      seq(n, i requires 0 <= i < n => ops.mul(c[i], ops.conj(ops.chirp(i, n))))
  }

  /** Models `IFFT` (fft.h:63-70): conjugate, `FFT`, conjugate and divide by n. */
  function Ifft<T>(data: seq<T>, ops: Ops<T>): (r: seq<T>)
    ensures |r| == |data|
  {
    var conjd := seq(|data|, i requires 0 <= i < |data| => ops.conj(data[i]));
    var res := Fft(conjd, ops);
    seq(|res|, i requires 0 <= i < |res| => ops.scale(ops.conj(res[i]), |data|))
  }
}

=== FILE: gilbert.dfy ===
/**
 * The generalized Hilbert ("gilbert") curve index of include/hilbert.h.
 *
 * A block of cells is described, as in the source, by an origin (x, y), a
 * major axis vector (aX, aY) and an orthogonal axis vector (bX, bY).  The
 * rank of a destination cell is found by descending into the sub-block that
 * contains it and adding the cell counts of the sub-blocks passed over on
 * the way.  `Locate` is the inverse walk (rank to cell); the two together
 * show that `GilbIdx` is a bijection from a W x H grid onto [0, W*H).
 */
module Gilbert {
  import opened Bits

  /** Absolute value (std::abs on int). */
  function Abs(v: int): nat
  {
    if v < 0 then -v else v
  }

  /** Models `sign` (hilbert.h:34-38). */
  function Sign(v: int): int
  {
    if v < 0 then -1 else if v > 0 then 1 else 0
  }

  /** The sign is -1, 0 or 1 and agrees with the sign of its argument. */
  lemma SignFacts(v: int)
    ensures -1 <= Sign(v) <= 1
    ensures Sign(v) * v == Abs(v)
    ensures Sign(v) == 0 <==> v == 0
  {
  }

  /**
   * `s * v` for a unit direction s in {-1, 0, 1}: v steps along the
   * direction, written without a product.
   */
  function Step(s: int, v: int): int
  {
    if s < 0 then -v else if s > 0 then v else 0
  }

  lemma StepIsProduct(s: int, v: int)
    requires -1 <= s <= 1
    ensures Step(s, v) == s * v
  {
  }

  /**
   * On an axis-aligned block the unit sums dx = sign(aX) + sign(bX) and
   * dy = sign(aY) + sign(bY) (hilbert.h:83-84) are -1, 0 or 1, so the
   * base cases' `Step` is the source's dx * (x_dst - x) and
   * dy * (y_dst - y) (hilbert.h:86-94).
   */
  lemma AxialStep(blk: Block, u: int, v: int)
    requires Axial(blk)
    ensures Step(Sign(blk.aX) + Sign(blk.bX), u) == (Sign(blk.aX) + Sign(blk.bX)) * u
    ensures Step(Sign(blk.aY) + Sign(blk.bY), v) == (Sign(blk.aY) + Sign(blk.bY)) * v
  {
    StepIsProduct(Sign(blk.aX) + Sign(blk.bX), u);
    StepIsProduct(Sign(blk.aY) + Sign(blk.bY), v);
  }

  /** `v >> 1` on a signed integer: an arithmetic shift, i.e. floor division. */
  function Half(v: int): int
  {
    v / 2
  }

  /**
   * One coordinate of the `in_bounds` test: p lies on the run of |d| cells
   * that starts at s and heads in the direction of d's sign.
   */
  predicate InSpan(p: int, s: int, d: int)
  {
    if d < 0 then !(p > s || p <= s + d) else !(p < s || p >= s + d)
  }

  /** Models `in_bounds` (hilbert.h:40-64); the source's 0/1 result is a bool here. */
  predicate InBounds(x: int, y: int, xs: int, ys: int, aX: int, aY: int, bX: int, bY: int)
  {
    InSpan(x, xs, aX + bX) && InSpan(y, ys, aY + bY)
  }

  /**
   * `in_bounds` accepts exactly the cells of the half-open runs that start
   * at the origin and extend |aX + bX| and |aY + bY| cells in the directions
   * of those sums; a side of length zero accepts nothing.
   */
  lemma InBoundsSpans(x: int, y: int, xs: int, ys: int, aX: int, aY: int, bX: int, bY: int)
    ensures InBounds(x, y, xs, ys, aX, aY, bX, bY) <==>
      (if aX + bX >= 0 then xs <= x < xs + aX + bX else xs + aX + bX < x <= xs) &&
      (if aY + bY >= 0 then ys <= y < ys + aY + bY else ys + aY + bY < y <= ys)
    ensures aX + bX == 0 || aY + bY == 0 ==> !InBounds(x, y, xs, ys, aX, aY, bX, bY)
  {
  }

  /** The parameters (x, y, aX, aY, bX, bY) that `recgilbert` carries. */
  datatype Block = Block(x: int, y: int, aX: int, aY: int, bX: int, bY: int)

  /** A two-component integer vector, such as a halved axis. */
  datatype Vec = Vec(p: int, q: int)

  /** The two sub-blocks of the major-axis split, in path order. */
  datatype Halves = Halves(head: Block, rest: Block)

  /** The three sub-blocks of the standard split, in path order. */
  datatype Thirds = Thirds(first: Block, middle: Block, last: Block)

  /**
   * One level of a walk down the split tree: the sub-block it continues in
   * and a number carried along (a rank offset or a rank inside `sub`).
   */
  datatype Into = Into(at: int, sub: Block)

  /**
   * A length-two vector along one coordinate axis: exactly one component is
   * non-zero.
   */
  predicate OnAxis(p: int, q: int)
  {
    (p == 0) != (q == 0)
  }

  /**
   * The shape every block reached from `gilbidx` has: both axis vectors are
   * non-zero, each lies along a coordinate axis, and they are orthogonal.
   */
  predicate Axial(b: Block)
  {
    OnAxis(b.aX, b.aY) && OnAxis(b.bX, b.bY) && (b.aX == 0 <==> b.bX != 0)
  }

  function Width(b: Block): nat
  {
    Abs(b.aX + b.aY)
  }

  function Height(b: Block): nat
  {
    Abs(b.bX + b.bY)
  }

  function Area(b: Block): nat
  {
    Width(b) * Height(b)
  }

  /** The cell (px, py) is one of the block's cells. */
  predicate Contains(b: Block, px: int, py: int)
  {
    InBounds(px, py, b.x, b.y, b.aX, b.aY, b.bX, b.bY)
  }

  /** `(p >> 1, q >> 1)`: the source's half of an axis vector (hilbert.h:96-99). */
  function HalfVec(p: int, q: int): Vec
  {
    Vec(Half(p), Half(q))
  }

  /**
   * The half of an axis vector of length `len` with the "prefer even steps"
   * correction (hilbert.h:105-109, 118-122): an odd half of a vector longer
   * than 2 is lengthened by one unit step.
   */
  function EvenHalfVec(p: int, q: int, len: nat): Vec
  {
    var h := HalfVec(p, q);
    if Abs(h.p + h.q) % 2 == 1 && len > 2 then Vec(h.p + Sign(p), h.q + Sign(q)) else h
  }

  /**
   * Cutting an axis vector (p, q) at h leaves two non-empty pieces that
   * point the same way as (p, q) and whose lengths add up to its length.
   */
  predicate ProperCut(p: int, q: int, h: Vec)
  {
    && OnAxis(h.p, h.q) && OnAxis(p - h.p, q - h.q)
    && (p == 0 <==> h.p == 0) && (q == 0 <==> h.q == 0)
    && Sign(h.p) == Sign(p) && Sign(h.q) == Sign(q)
    && Sign(p - h.p) == Sign(p) && Sign(q - h.q) == Sign(q)
    && 1 <= Abs(h.p + h.q) < Abs(p + q)
    && Abs((p - h.p) + (q - h.q)) == Abs(p + q) - Abs(h.p + h.q)
  }

  lemma HalfVecCut(p: int, q: int)
    requires OnAxis(p, q) && Abs(p + q) >= 2
    ensures ProperCut(p, q, HalfVec(p, q))
  {
  }

  lemma EvenHalfVecCut(p: int, q: int, len: nat)
    requires OnAxis(p, q) && len == Abs(p + q) && len >= 2
    ensures ProperCut(p, q, EvenHalfVec(p, q, len))
    ensures len > 2 ==> Abs(EvenHalfVec(p, q, len).p + EvenHalfVec(p, q, len).q) % 2 == 0
  {
  }

  /**
   * The major-axis split (hilbert.h:96-116): the major axis is halved, the
   * half rounded up to an even length when the block is wider than 2, and
   * the block cut into a head and the rest.
   */
  function SplitMajor(b: Block): (r: Halves)
    requires Axial(b) && Height(b) >= 2 && 2 * Width(b) > 3 * Height(b)
    ensures Axial(r.head) && Axial(r.rest)
    ensures Height(r.head) == Height(b) && Height(r.rest) == Height(b)
    ensures 1 <= Width(r.head) < Width(b) && 1 <= Width(r.rest) < Width(b)
    ensures Width(r.head) + Width(r.rest) == Width(b)
    ensures Width(r.head) % 2 == 0
  {
    var a2 := EvenHalfVec(b.aX, b.aY, Width(b));
    EvenHalfVecCut(b.aX, b.aY, Width(b));
    Halves(Block(b.x, b.y, a2.p, a2.q, b.bX, b.bY),
           Block(b.x + a2.p, b.y + a2.q, b.aX - a2.p, b.aY - a2.q, b.bX, b.bY))
  }

  /**
   * The standard three-way split (hilbert.h:118-135): the orthogonal axis is
   * halved (rounded up to even when the block is taller than 2); the path
   * goes one step "up" through `first`, along the whole major axis through
   * `middle`, and back "down" through `last`, whose axes are reversed.
   */
  function SplitStandard(b: Block): (r: Thirds)
    requires Axial(b) && Width(b) >= 2 && Height(b) >= 2
    ensures Axial(r.first) && Axial(r.middle) && Axial(r.last)
  {
    var a2 := HalfVec(b.aX, b.aY);
    var b2 := EvenHalfVec(b.bX, b.bY, Height(b));
    HalfVecCut(b.aX, b.aY);
    EvenHalfVecCut(b.bX, b.bY, Height(b));
    Thirds(Block(b.x, b.y, b2.p, b2.q, a2.p, a2.q),
           Block(b.x + b2.p, b.y + b2.q, b.aX, b.aY, b.bX - b2.p, b.bY - b2.q),
           Block(b.x + b.aX - Sign(b.aX) + b2.p - Sign(b.bX), b.y + b.aY - Sign(b.aY) + b2.q - Sign(b.bY),
                 -b2.p, -b2.q, -(b.aX - a2.p), -(b.aY - a2.q)))
  }

  /**
   * The sides of the standard split's blocks: `first` and `last` stand
   * across the parent's major axis and share it, `middle` runs along all of
   * it, and every side is shorter than the parent's.
   */
  lemma StandardSides(b: Block)
    requires Axial(b) && Width(b) >= 2 && Height(b) >= 2
    ensures var s := SplitStandard(b);
      && Width(s.last) == Width(s.first) && Height(s.first) + Height(s.last) == Width(b)
      && Width(s.middle) == Width(b) && Width(s.first) + Height(s.middle) == Height(b)
      && 1 <= Width(s.first) < Height(b) && 1 <= Height(s.first) < Width(b)
      && 1 <= Height(s.middle) < Height(b) && 1 <= Height(s.last) < Width(b)
      && (Height(b) > 2 ==> Width(s.first) % 2 == 0)
  {
    HalfVecCut(b.aX, b.aY);
    EvenHalfVecCut(b.bX, b.bY, Height(b));
  }

  /** A block is cut along its major axis into head and rest with no gap and no overlap. */
  lemma MajorPartition(b: Block, px: int, py: int)
    requires Axial(b) && Height(b) >= 2 && 2 * Width(b) > 3 * Height(b)
    ensures var s := SplitMajor(b);
      && (Contains(b, px, py) <==> Contains(s.head, px, py) || Contains(s.rest, px, py))
      && !(Contains(s.head, px, py) && Contains(s.rest, px, py))
  {
    EvenHalfVecCut(b.aX, b.aY, Width(b));
  }

  /** The three blocks of the standard split tile their parent exactly. */
  lemma StandardPartition(b: Block, px: int, py: int)
    requires Axial(b) && Width(b) >= 2 && Height(b) >= 2
    ensures var s := SplitStandard(b);
      && (Contains(b, px, py) <==> Contains(s.first, px, py) || Contains(s.middle, px, py) || Contains(s.last, px, py))
      && !(Contains(s.first, px, py) && Contains(s.middle, px, py))
      && !(Contains(s.first, px, py) && Contains(s.last, px, py))
      && !(Contains(s.middle, px, py) && Contains(s.last, px, py))
  {
    HalfVecCut(b.aX, b.aY);
    EvenHalfVecCut(b.bX, b.bY, Height(b));
  }

  lemma AbsMul(p: int, q: int)
    ensures Abs(p * q) == Abs(p) * Abs(q)
  {
    if p < 0 && q >= 0 {
      assert p * q == -((-p) * q);
    } else if p >= 0 && q < 0 {
      assert p * q == -(p * (-q));
    } else if p < 0 && q < 0 {
      assert p * q == (-p) * (-q);
    }
  }

  /** Areas of sub-blocks whose sides are no longer than their parent's. */
  lemma AreaBelow(w1: nat, h1: nat, w: nat, h: nat)
    requires w1 <= w && h1 <= h && (w1 < w || h1 < h) && h1 >= 1 && w1 >= 1
    ensures w1 * h1 < w * h
  {
    assert w1 * h1 <= w * h1;
    assert w * h1 <= w * h;
  }

  /**
   * Skipping the head of a major split adds exactly its cell count
   * (hilbert.h:114); both pieces are smaller than the parent and together
   * as large.
   */
  lemma MajorAreas(b: Block)
    requires Axial(b) && Height(b) >= 2 && 2 * Width(b) > 3 * Height(b)
    ensures var s := SplitMajor(b);
      && Abs((s.head.aX + s.head.aY) * (b.bX + b.bY)) == Area(s.head)
      && Area(s.head) < Area(b) && Area(s.rest) < Area(b)
      && Area(s.head) + Area(s.rest) == Area(b)
  {
    var s := SplitMajor(b);
    AbsMul(s.head.aX + s.head.aY, b.bX + b.bY);
    AreaBelow(Width(s.head), Height(s.head), Width(b), Height(b));
    AreaBelow(Width(s.rest), Height(s.rest), Width(b), Height(b));
    assert (Width(s.head) + Width(s.rest)) * Height(b) == Width(s.head) * Height(b) + Width(s.rest) * Height(b);
  }

  /**
   * Skipping the first and middle blocks of a standard split adds exactly
   * their cell counts (hilbert.h:128, 133); all three are smaller than the
   * parent and together as large.
   */
  lemma StandardAreas(b: Block)
    requires Axial(b) && Width(b) >= 2 && Height(b) >= 2
    ensures var s := SplitStandard(b);
      && Abs((s.first.aX + s.first.aY) * (s.first.bX + s.first.bY)) == Area(s.first)
      && Abs((b.aX + b.aY) * (s.middle.bX + s.middle.bY)) == Area(s.middle)
      && Area(s.first) < Area(b) && Area(s.middle) < Area(b) && Area(s.last) < Area(b)
      && Area(s.first) + Area(s.middle) + Area(s.last) == Area(b)
  {
    var s := SplitStandard(b);
    var w, h := Width(b), Height(b);
    StandardSides(b);
    AbsMul(s.first.aX + s.first.aY, s.first.bX + s.first.bY);
    AbsMul(b.aX + b.aY, s.middle.bX + s.middle.bY);
    AreaBelow(Width(s.first), Height(s.first), h, w);
    AreaBelow(Width(s.middle), Height(s.middle), w, h);
    AreaBelow(Width(s.last), Height(s.last), h, w);
    SumOfThree(Width(s.first), Height(s.first), Height(s.last), w, h);
  }

  lemma SumOfThree(h1: nat, w1: nat, w3: nat, w: nat, h: nat)
    requires w1 + w3 == w && h1 <= h
    ensures h1 * w1 + w * (h - h1) + h1 * w3 == w * h
  {
    assert h1 * w1 + h1 * w3 == h1 * w;
    assert w * (h - h1) + h1 * w == w * h;
  }

  /**
   * On a block one cell thick, the base cases of `recgilbert` (hilbert.h:86-94)
   * count the steps from the block's origin to the destination.
   */
  lemma LineRank(cur: int, xDst: int, yDst: int, blk: Block)
    requires Axial(blk) && (Height(blk) == 1 || Width(blk) == 1)
    ensures Contains(blk, xDst, yDst) ==> var d := Abs(xDst - blk.x) + Abs(yDst - blk.y);
      && d < Area(blk)
      && (Height(blk) == 1 && Sign(blk.aX) == 0 ==> Step(Sign(blk.aY) + Sign(blk.bY), yDst - blk.y) == d)
      && (Height(blk) == 1 && Sign(blk.aX) != 0 ==> Step(Sign(blk.aX) + Sign(blk.bX), xDst - blk.x) == d)
      && (Width(blk) == 1 && Sign(blk.bX) == 0 ==> Step(Sign(blk.aY) + Sign(blk.bY), yDst - blk.y) == d)
      && (Width(blk) == 1 && Sign(blk.bX) != 0 ==> Step(Sign(blk.aX) + Sign(blk.bX), xDst - blk.x) == d)
  {
  }

  /**
   * Models `recgilbert` (hilbert.h:66-136): the rank of cell (xDst, yDst)
   * along the curve through block `blk`, offset by `cur`.  A block one cell
   * thick is counted directly; any other block is left to the sub-block
   * `Descend` picks, as every recursive branch of the source returns the
   * recursive call's result unchanged.  A cell of the block gets a rank in
   * [cur, cur + Area(blk)).
   */
  function RecGilbert(cur: int, xDst: int, yDst: int, blk: Block): (r: int)
    requires Axial(blk)
    ensures Contains(blk, xDst, yDst) ==> cur <= r < cur + Area(blk)
    decreases Area(blk)
  {
    var width := Abs(blk.aX + blk.aY);
    var height := Abs(blk.bX + blk.bY);
    var dax := Sign(blk.aX);
    var day := Sign(blk.aY);
    var dbx := Sign(blk.bX);
    var dby := Sign(blk.bY);
    var dx := dax + dbx;
    var dy := day + dby;
    if height == 1 then
      LineRank(cur, xDst, yDst, blk);
      (if dax == 0 then cur + Step(dy, yDst - blk.y) else cur + Step(dx, xDst - blk.x))
    else if width == 1 then
      LineRank(cur, xDst, yDst, blk);
      (if dbx == 0 then cur + Step(dy, yDst - blk.y) else cur + Step(dx, xDst - blk.x))
    else
      var d := Descend(cur, xDst, yDst, blk);
      RecGilbert(d.at, xDst, yDst, d.sub)
  }

  /**
   * One level of `recgilbert` on a block at least two cells thick
   * (hilbert.h:96-135): the sub-block the recursion continues in, and the
   * rank offset it continues with.  A cell of the block lies in the
   * sub-block chosen for it, at an offset that leaves room for the whole
   * sub-block inside the parent's range.
   */
  function Descend(cur: int, xDst: int, yDst: int, blk: Block): (r: Into)
    requires Axial(blk) && Width(blk) >= 2 && Height(blk) >= 2
    ensures Axial(r.sub) && Area(r.sub) < Area(blk)
    ensures Contains(blk, xDst, yDst) ==>
      Contains(r.sub, xDst, yDst) && cur <= r.at && r.at + Area(r.sub) <= cur + Area(blk)
  {
    if 2 * Width(blk) > 3 * Height(blk) then
      DescendMajor(cur, xDst, yDst, blk)
    else
      DescendStandard(cur, xDst, yDst, blk)
  }

  /** The long-block branch (hilbert.h:104-116). */
  function DescendMajor(cur: int, xDst: int, yDst: int, blk: Block): (r: Into)
    requires Axial(blk) && Height(blk) >= 2 && 2 * Width(blk) > 3 * Height(blk)
    ensures Axial(r.sub) && Area(r.sub) < Area(blk)
    ensures Contains(blk, xDst, yDst) ==>
      Contains(r.sub, xDst, yDst) && cur <= r.at && r.at + Area(r.sub) <= cur + Area(blk)
  {
    var s := SplitMajor(blk);
    MajorPartition(blk, xDst, yDst);
    MajorAreas(blk);
    if Contains(s.head, xDst, yDst) then
      Into(cur, s.head)
    else
      Into(cur + Abs((s.head.aX + s.head.aY) * (blk.bX + blk.bY)), s.rest)
  }

  /** The three-block branch (hilbert.h:118-135). */
  function DescendStandard(cur: int, xDst: int, yDst: int, blk: Block): (r: Into)
    requires Axial(blk) && Width(blk) >= 2 && Height(blk) >= 2
    ensures Axial(r.sub) && Area(r.sub) < Area(blk)
    ensures Contains(blk, xDst, yDst) ==>
      Contains(r.sub, xDst, yDst) && cur <= r.at && r.at + Area(r.sub) <= cur + Area(blk)
  {
    var s := SplitStandard(blk);
    StandardPartition(blk, xDst, yDst);
    StandardAreas(blk);
    if Contains(s.first, xDst, yDst) then
      Into(cur, s.first)
    else
      var cur1 := cur + Abs((s.first.aX + s.first.aY) * (s.first.bX + s.first.bY));
      if Contains(s.middle, xDst, yDst) then
        Into(cur1, s.middle)
      else
        Into(cur1 + Abs((blk.aX + blk.aY) * (s.middle.bX + s.middle.bY)), s.last)
  }

  /**
   * The inverse of `RecGilbert`: the cell of block `blk` whose rank, counted
   * from the block's first cell, is k.  It walks the same splits, choosing
   * the sub-block by comparing k with the cell counts passed over.
   */
  function Locate(k: int, blk: Block): (c: Cell)
    requires Axial(blk) && 0 <= k < Area(blk)
    ensures Contains(blk, c.x, c.y)
    decreases Area(blk)
  {
    if Height(blk) == 1 then
      LineLocate(k, blk);
      Cell(blk.x + Step(Sign(blk.aX), k), blk.y + Step(Sign(blk.aY), k))
    else if Width(blk) == 1 then
      LineLocate(k, blk);
      Cell(blk.x + Step(Sign(blk.bX), k), blk.y + Step(Sign(blk.bY), k))
    else
      var d := LocateStep(k, blk);
      var c := Locate(d.at, d.sub);
      SubCovered(k, blk, c.x, c.y);
      c
  }

  /** The cell k steps along a block one cell thick lies in the block. */
  lemma LineLocate(k: int, blk: Block)
    requires Axial(blk) && 0 <= k < Area(blk) && (Height(blk) == 1 || Width(blk) == 1)
    ensures Height(blk) == 1 ==> Contains(blk, blk.x + Step(Sign(blk.aX), k), blk.y + Step(Sign(blk.aY), k))
    ensures Width(blk) == 1 ==> Contains(blk, blk.x + Step(Sign(blk.bX), k), blk.y + Step(Sign(blk.bY), k))
  {
    if Height(blk) == 1 {
      assert Area(blk) == Width(blk);
    } else {
      assert Area(blk) == Height(blk);
    }
  }

  /**
   * One level of `Locate`: the sub-block holding rank k, and the rank
   * inside it once the cells of the sub-blocks before it are subtracted.
   */
  function LocateStep(k: int, blk: Block): (r: Into)
    requires Axial(blk) && Width(blk) >= 2 && Height(blk) >= 2 && 0 <= k < Area(blk)
    ensures Axial(r.sub) && Area(r.sub) < Area(blk) && 0 <= r.at < Area(r.sub) && r.at <= k
  {
    if 2 * Width(blk) > 3 * Height(blk) then
      var s := SplitMajor(blk);
      MajorAreas(blk);
      if k < Area(s.head) then Into(k, s.head) else Into(k - Area(s.head), s.rest)
    else
      var s := SplitStandard(blk);
      StandardAreas(blk);
      if k < Area(s.first) then Into(k, s.first)
      else if k < Area(s.first) + Area(s.middle) then Into(k - Area(s.first), s.middle)
      else Into(k - Area(s.first) - Area(s.middle), s.last)
  }

  /** Every cell of the sub-block `LocateStep` picks is a cell of the parent. */
  lemma SubCovered(k: int, blk: Block, px: int, py: int)
    requires Axial(blk) && Width(blk) >= 2 && Height(blk) >= 2 && 0 <= k < Area(blk)
    requires Contains(LocateStep(k, blk).sub, px, py)
    ensures Contains(blk, px, py)
  {
    if 2 * Width(blk) > 3 * Height(blk) {
      MajorPartition(blk, px, py);
    } else {
      StandardPartition(blk, px, py);
    }
  }

  /**
   * The two walks agree on one level: a cell of the sub-block that rank k
   * falls in is ranked inside that same sub-block, after exactly the cells
   * that `LocateStep` subtracted from k.
   */
  lemma DescendOfStep(cur: int, k: int, blk: Block, px: int, py: int)
    requires Axial(blk) && Width(blk) >= 2 && Height(blk) >= 2 && 0 <= k < Area(blk)
    requires Contains(LocateStep(k, blk).sub, px, py)
    ensures Descend(cur, px, py, blk) == Into(cur + k - LocateStep(k, blk).at, LocateStep(k, blk).sub)
  {
    if 2 * Width(blk) > 3 * Height(blk) {
      DescendOfStepMajor(cur, k, blk, px, py);
    } else {
      DescendOfStepStandard(cur, k, blk, px, py);
    }
  }

  lemma DescendOfStepMajor(cur: int, k: int, blk: Block, px: int, py: int)
    requires Axial(blk) && Height(blk) >= 2 && 2 * Width(blk) > 3 * Height(blk) && 0 <= k < Area(blk)
    requires Contains(LocateStep(k, blk).sub, px, py)
    ensures DescendMajor(cur, px, py, blk) == Into(cur + k - LocateStep(k, blk).at, LocateStep(k, blk).sub)
  {
    MajorAreas(blk);
    MajorPartition(blk, px, py);
  }

  lemma DescendOfStepStandard(cur: int, k: int, blk: Block, px: int, py: int)
    requires Axial(blk) && Width(blk) >= 2 && Height(blk) >= 2 && 2 * Width(blk) <= 3 * Height(blk)
    requires 0 <= k < Area(blk) && Contains(LocateStep(k, blk).sub, px, py)
    ensures DescendStandard(cur, px, py, blk) == Into(cur + k - LocateStep(k, blk).at, LocateStep(k, blk).sub)
  {
    StandardAreas(blk);
    StandardPartition(blk, px, py);
  }

  /**
   * The converse agreement: the ranks of the sub-block `Descend` chooses for
   * a cell are exactly the ranks `LocateStep` sends into that sub-block.
   */
  lemma StepOfDescend(cur: int, px: int, py: int, blk: Block, k: int)
    requires Axial(blk) && Width(blk) >= 2 && Height(blk) >= 2 && Contains(blk, px, py)
    requires var d := Descend(cur, px, py, blk); d.at - cur <= k < d.at - cur + Area(d.sub)
    ensures 0 <= k < Area(blk)
    ensures LocateStep(k, blk) == Into(k - (Descend(cur, px, py, blk).at - cur), Descend(cur, px, py, blk).sub)
  {
    if 2 * Width(blk) > 3 * Height(blk) {
      StepOfDescendMajor(cur, px, py, blk, k);
    } else {
      StepOfDescendStandard(cur, px, py, blk, k);
    }
  }

  lemma StepOfDescendMajor(cur: int, px: int, py: int, blk: Block, k: int)
    requires Axial(blk) && Height(blk) >= 2 && 2 * Width(blk) > 3 * Height(blk) && Contains(blk, px, py)
    requires var d := DescendMajor(cur, px, py, blk); d.at - cur <= k < d.at - cur + Area(d.sub)
    ensures 0 <= k < Area(blk)
    ensures LocateStep(k, blk) == Into(k - (DescendMajor(cur, px, py, blk).at - cur), DescendMajor(cur, px, py, blk).sub)
  {
    MajorAreas(blk);
    MajorPartition(blk, px, py);
  }

  lemma StepOfDescendStandard(cur: int, px: int, py: int, blk: Block, k: int)
    requires Axial(blk) && Width(blk) >= 2 && Height(blk) >= 2 && 2 * Width(blk) <= 3 * Height(blk)
    requires Contains(blk, px, py)
    requires var d := DescendStandard(cur, px, py, blk); d.at - cur <= k < d.at - cur + Area(d.sub)
    ensures 0 <= k < Area(blk)
    ensures LocateStep(k, blk) == Into(k - (DescendStandard(cur, px, py, blk).at - cur), DescendStandard(cur, px, py, blk).sub)
  {
    StandardAreas(blk);
    StandardPartition(blk, px, py);
  }

  /**
   * On a block at least two cells thick, `Locate` continues in the
   * sub-block `Descend` picks for a cell, past the cells that precede it.
   */
  lemma LocateInDescent(j: int, px: int, py: int, blk: Block)
    requires Axial(blk) && Width(blk) >= 2 && Height(blk) >= 2 && Contains(blk, px, py)
    requires 0 <= j < Area(Descend(0, px, py, blk).sub)
    ensures 0 <= Descend(0, px, py, blk).at + j < Area(blk)
    ensures Locate(Descend(0, px, py, blk).at + j, blk) == Locate(j, Descend(0, px, py, blk).sub)
  {
    var d := Descend(0, px, py, blk);
    StepOfDescend(0, px, py, blk, d.at + j);
    assert LocateStep(d.at + j, blk) == Into(j, d.sub);
  }

  /** Locating a rank and ranking the cell found gives the rank back. */
  lemma {:induction false} RankOfLocate(cur: int, k: int, blk: Block)
    requires Axial(blk) && 0 <= k < Area(blk)
    ensures RecGilbert(cur, Locate(k, blk).x, Locate(k, blk).y, blk) == cur + k
    decreases Area(blk), 1
  {
    if Height(blk) == 1 || Width(blk) == 1 {
      LineRankOfLocate(cur, k, blk);
    } else {
      RankOfLocateSplit(cur, k, blk);
    }
  }

  lemma {:induction false} RankOfLocateSplit(cur: int, k: int, blk: Block)
    requires Axial(blk) && Width(blk) >= 2 && Height(blk) >= 2 && 0 <= k < Area(blk)
    ensures RecGilbert(cur, Locate(k, blk).x, Locate(k, blk).y, blk) == cur + k
    decreases Area(blk), 0
  {
    var d := LocateStep(k, blk);
    var c := Locate(d.at, d.sub);
    var off := cur + k - d.at;
    assert Locate(k, blk) == c;
    assert Descend(cur, c.x, c.y, blk) == Into(off, d.sub) by { DescendOfStep(cur, k, blk, c.x, c.y); }
    assert RecGilbert(off, c.x, c.y, d.sub) == off + d.at by { RankOfLocate(off, d.at, d.sub); }
  }

  /** Every cell of the block is located by some rank. */
  lemma {:induction false} LocateCovers(px: int, py: int, blk: Block) returns (k: int)
    requires Axial(blk) && Contains(blk, px, py)
    ensures 0 <= k < Area(blk) && Locate(k, blk) == Cell(px, py)
    decreases Area(blk), 1
  {
    if Height(blk) == 1 || Width(blk) == 1 {
      k := RecGilbert(0, px, py, blk);
      LineLocateOfRank(0, px, py, blk);
    } else {
      k := LocateCoversSplit(px, py, blk);
    }
  }

  lemma {:induction false} LocateCoversSplit(px: int, py: int, blk: Block) returns (k: int)
    requires Axial(blk) && Width(blk) >= 2 && Height(blk) >= 2 && Contains(blk, px, py)
    ensures 0 <= k < Area(blk) && Locate(k, blk) == Cell(px, py)
    decreases Area(blk), 0
  {
    var d := Descend(0, px, py, blk);
    var j := LocateCovers(px, py, d.sub);
    k := d.at + j;
    assert 0 <= d.at;
    assert d.at + Area(d.sub) <= Area(blk);
    assert 0 <= k < Area(blk);
    LocateInDescent(j, px, py, blk);
    assert Locate(k, blk) == Locate(j, d.sub);
  }

  /** Ranking a cell of the block and locating that rank gives the cell back. */
  lemma LocateOfRank(cur: int, k: int, px: int, py: int, blk: Block)
    requires Axial(blk) && Contains(blk, px, py) && RecGilbert(cur, px, py, blk) == cur + k
    ensures 0 <= k < Area(blk) && Locate(k, blk) == Cell(px, py)
  {
    var j := LocateCovers(px, py, blk);
    RankOfLocate(cur, j, blk);
  }

  lemma LineRankOfLocate(cur: int, k: int, blk: Block)
    requires Axial(blk) && 0 <= k < Area(blk) && (Height(blk) == 1 || Width(blk) == 1)
    ensures RecGilbert(cur, Locate(k, blk).x, Locate(k, blk).y, blk) == cur + k
  {
  }

  lemma LineLocateOfRank(cur: int, px: int, py: int, blk: Block)
    requires Axial(blk) && Contains(blk, px, py) && (Height(blk) == 1 || Width(blk) == 1)
    ensures Locate(RecGilbert(cur, px, py, blk) - cur, blk) == Cell(px, py)
  {
    LineRank(cur, px, py, blk);
    var d := Abs(px - blk.x) + Abs(py - blk.y);
    if Height(blk) == 1 {
      assert Step(Sign(blk.aX), d) == px - blk.x && Step(Sign(blk.aY), d) == py - blk.y;
    } else {
      assert Step(Sign(blk.bX), d) == px - blk.x && Step(Sign(blk.bY), d) == py - blk.y;
    }
  }

  /**
   * The block `gilbidx` starts from (hilbert.h:138-141): the whole
   * width x height grid, with its major axis along the longer side.
   */
  function Grid(width: int, height: int): (b: Block)
    requires width >= 1 && height >= 1
    ensures Axial(b) && Area(b) == width * height
    ensures forall px, py :: Contains(b, px, py) <==> 0 <= px < width && 0 <= py < height
  {
    if width >= height then Block(0, 0, width, 0, 0, height) else Block(0, 0, 0, height, width, 0)
  }

  /**
   * Models `gilbidx` (hilbert.h:138-141): the position of cell (x, y) along
   * the generalized Hilbert curve through a width x height grid.  Cells of
   * the grid get positions in [0, width * height).
   */
  function GilbIdx(x: int, y: int, width: int, height: int): (r: int)
    requires width >= 1 && height >= 1
    ensures 0 <= x < width && 0 <= y < height ==> 0 <= r < width * height
  {
    RecGilbert(0, x, y, Grid(width, height))
  }

  /** The inverse of `GilbIdx`: the grid cell at position k along the curve. */
  function GilbCell(k: int, width: int, height: int): (c: Cell)
    requires width >= 1 && height >= 1 && 0 <= k < width * height
    ensures 0 <= c.x < width && 0 <= c.y < height
  {
    Locate(k, Grid(width, height))
  }

  /** Every position along the curve belongs to exactly the cell `GilbCell` names. */
  lemma GilbIdxOfCell(k: int, width: int, height: int)
    requires width >= 1 && height >= 1 && 0 <= k < width * height
    ensures GilbIdx(GilbCell(k, width, height).x, GilbCell(k, width, height).y, width, height) == k
  {
    RankOfLocate(0, k, Grid(width, height));
  }

  /** `GilbCell` undoes `GilbIdx` on every cell of the grid. */
  lemma GilbCellOfIdx(x: int, y: int, width: int, height: int)
    requires width >= 1 && height >= 1 && 0 <= x < width && 0 <= y < height
    ensures GilbCell(GilbIdx(x, y, width, height), width, height) == Cell(x, y)
  {
    LocateOfRank(0, GilbIdx(x, y, width, height), x, y, Grid(width, height));
  }

  /** Distinct cells of the grid get distinct positions. */
  lemma GilbIdxInjective(x1: int, y1: int, x2: int, y2: int, width: int, height: int)
    requires width >= 1 && height >= 1
    requires 0 <= x1 < width && 0 <= y1 < height && 0 <= x2 < width && 0 <= y2 < height
    requires GilbIdx(x1, y1, width, height) == GilbIdx(x2, y2, width, height)
    ensures x1 == x2 && y1 == y2
  {
    GilbCellOfIdx(x1, y1, width, height);
    GilbCellOfIdx(x2, y2, width, height);
  }
}

=== FILE: hilbidx.dfy ===
/**
 * The power-of-two Hilbert curve of `hilbidx` (include/hilbert.h:4-32):
 * position `index` along the curve through a 2^n x 2^n square is turned
 * into a cell, consuming two bits of the index per step, least significant
 * first, while the square doubles.  `Unwind` walks the steps backwards and
 * shows that the map is a bijection from [0, 4^n) onto the square.
 */
module HilbertIndex {
  import opened Bits

  /** C++ integer division, which truncates toward zero. */
  function TruncDiv(a: int, d: int): int
    requires d > 0
  {
    if a >= 0 then a / d else -((-a) / d)
  }

  /** `1 & (t / 2)` (hilbert.h:11). */
  function Rx(t: int): int
  {
    TruncDiv(t, 2) % 2
  }

  /** `1 & (t ^ rx)` (hilbert.h:12): bit 0 of t flipped when rx is 1. */
  function Ry(t: int): int
  {
    if t % 2 == Rx(t) then 0 else 1
  }

  /**
   * One iteration of the loop (hilbert.h:11-26) on the point p of an
   * s x s square: reflect and transpose or just transpose it, then move
   * it into the quadrant (rx, ry) of the 2s x 2s square.
   */
  function HilbStep(p: Cell, t: int, s: int): (r: Cell)
    ensures 0 <= p.x < s && 0 <= p.y < s ==> 0 <= r.x < 2 * s && 0 <= r.y < 2 * s
  {
    var rx, ry := Rx(t), Ry(t);
    var q := if ry == 0 then (if rx == 1 then Cell(s - 1 - p.y, s - 1 - p.x) else Cell(p.y, p.x)) else p;
    Cell(q.x + (if rx == 1 then s else 0), q.y + (if ry == 1 then s else 0))
  }

  /**
   * Iterations i, i+1, ..., n-1 of the loop (hilbert.h:10-29) from point p
   * and remaining index t; iteration i works on the square of side 2^i.
   */
  function HilbRun(p: Cell, t: int, i: nat, n: nat): Cell
    decreases n - i
  {
    if i >= n then p else HilbRun(HilbStep(p, t, Pow2(i)), TruncDiv(t, 4), i + 1, n)
  }

  /** The loop keeps the point inside the square, whatever the index. */
  lemma {:induction false} HilbRunBounds(p: Cell, t: int, i: nat, n: nat)
    requires i <= n && 0 <= p.x < Pow2(i) && 0 <= p.y < Pow2(i)
    ensures var r := HilbRun(p, t, i, n); 0 <= r.x < Pow2(n) && 0 <= r.y < Pow2(n)
    decreases n - i
  {
    if i < n {
      HilbRunBounds(HilbStep(p, t, Pow2(i)), TruncDiv(t, 4), i + 1, n);
    }
  }

  /**
   * Models `hilbidx` (hilbert.h:4-32): the cell at position `index` of the
   * curve through the 2^sidePow square, packed as x + (y << sidePow).  For
   * every index the cell lies in the square, so the packed value lies in
   * [0, 4^sidePow).
   */
  method HilbIdx(index: int, sidePow: nat) returns (r: int)
    ensures var p := HilbRun(Cell(0, 0), index, 0, sidePow);
      0 <= p.x < Pow2(sidePow) && 0 <= p.y < Pow2(sidePow) && r == p.x + p.y * Pow2(sidePow)
    ensures 0 <= r < Pow2(2 * sidePow)
  {
    var x, y, t, s := 0, 0, index, 1;
    var i := 0;
    while i < sidePow
      invariant 0 <= i <= sidePow && s == Pow2(i)
      invariant 0 <= x < s && 0 <= y < s
      invariant HilbRun(Cell(x, y), t, i, sidePow) == HilbRun(Cell(0, 0), index, 0, sidePow)
    {
      x, y := Turn(x, y, t, s);
      t := TruncDiv(t, 4);
      s := s * 2;
      i := i + 1;
    }
    r := x + y * s;
    PackBelow(x, y, s);
    Pow2Add(sidePow, sidePow);
  }

  /**
   * The body of the loop (hilbert.h:11-26): derive the quadrant (rx, ry)
   * from the low bits of t, reflect and transpose or just transpose, and
   * shift into the quadrant.  A point of the s x s square lands in the
   * 2s x 2s square, at a place from which `UnStep` reads back the old
   * point and the two index bits consumed.
   */
  method Turn(x0: int, y0: int, t: int, s: int) returns (x: int, y: int)
    ensures Cell(x, y) == HilbStep(Cell(x0, y0), t, s)
    ensures 0 <= x0 < s && 0 <= y0 < s ==> 0 <= x < 2 * s && 0 <= y < 2 * s
    ensures 0 <= x0 < s && 0 <= y0 < s && t >= 0 ==> UnStep(Cell(x, y), s) == Placed(Cell(x0, y0), t % 4)
  {
    x, y := x0, y0;
    var rx := TruncDiv(t, 2) % 2;
    var ry := if t % 2 == rx then 0 else 1;
    if ry == 0 {
      if rx == 1 {
        x := s - 1 - x;
        y := s - 1 - y;
      }
      x, y := y, x;
    }
    x := x + s * rx;
    y := y + s * ry;
    if 0 <= x0 < s && 0 <= y0 < s && t >= 0 {
      UnStepOfStep(Cell(x0, y0), t, s);
    }
  }

  /** x + y * s packs a cell of the s x s square below s * s. */
  lemma PackBelow(x: int, y: int, s: int)
    requires 0 <= x < s && 0 <= y < s
    ensures 0 <= x + y * s < s * s
  {
    MulLe(y, s - 1, s);
  }

  /** A cell together with a position along the curve. */
  datatype Placed = Placed(cell: Cell, rank: int)

  /**
   * The inverse of one step: the quadrant of p in the 2s x 2s square gives
   * back the two index bits, and undoing the reflection gives back the point.
   */
  function UnStep(p: Cell, s: int): Placed
  {
    var rx := if p.x >= s then 1 else 0;
    var ry := if p.y >= s then 1 else 0;
    var q := Cell(p.x - (if rx == 1 then s else 0), p.y - (if ry == 1 then s else 0));
    var orig := if ry == 0 then (if rx == 1 then Cell(s - 1 - q.y, s - 1 - q.x) else Cell(q.y, q.x)) else q;
    Placed(orig, 2 * rx + (if ry == rx then 0 else 1))
  }

  lemma UnStepOfStep(p: Cell, t: int, s: int)
    requires 0 <= p.x < s && 0 <= p.y < s && t >= 0
    ensures UnStep(HilbStep(p, t, s), s) == Placed(p, t % 4)
  {
    assert TruncDiv(t, 2) % 2 == (t % 4) / 2;
  }

  lemma StepOfUnStep(p: Cell, s: int, t: int)
    requires 0 <= p.x < 2 * s && 0 <= p.y < 2 * s && t >= 0 && t % 4 == UnStep(p, s).rank
    ensures var u := UnStep(p, s); 0 <= u.cell.x < s && 0 <= u.cell.y < s && 0 <= u.rank < 4
    ensures HilbStep(UnStep(p, s).cell, t, s) == p
  {
    assert TruncDiv(t, 2) % 2 == (t % 4) / 2;
  }

  /** Two more iterations multiply the index range by four. */
  lemma Pow4Step(m: nat)
    ensures Pow2(2 * m + 2) == 4 * Pow2(2 * m)
  {
    assert Pow2(2 * m + 2) == 2 * Pow2(2 * m + 1);
  }

  /**
   * The inverse of `HilbRun`: the cell of the 2^i square and the index
   * whose iterations i..n-1 end at p, recovering the top index digit from
   * the last iteration first.
   */
  function Unwind(p: Cell, i: nat, n: nat): Placed
    decreases n - i
  {
    if i >= n then Placed(p, 0)
    else
      var top := Unwind(p, i + 1, n);
      var u := UnStep(top.cell, Pow2(i));
      Placed(u.cell, 4 * top.rank + u.rank)
  }

  /** Unwinding the iterations taken from (p, t) gives back p and t. */
  lemma {:induction false} UnwindOfRun(p: Cell, t: int, i: nat, n: nat)
    requires i <= n && 0 <= p.x < Pow2(i) && 0 <= p.y < Pow2(i) && 0 <= t < Pow2(2 * (n - i))
    ensures Unwind(HilbRun(p, t, i, n), i, n) == Placed(p, t)
    decreases n - i
  {
    if i < n {
      Pow4Step(n - i - 1);
      UnwindOfRun(HilbStep(p, t, Pow2(i)), t / 4, i + 1, n);
      UnStepOfStep(p, t, Pow2(i));
    }
  }

  /** Every cell is reached: running from the unwound start gives p back. */
  lemma {:induction false} RunOfUnwind(p: Cell, i: nat, n: nat)
    requires i <= n && 0 <= p.x < Pow2(n) && 0 <= p.y < Pow2(n)
    ensures var u := Unwind(p, i, n);
      && 0 <= u.cell.x < Pow2(i) && 0 <= u.cell.y < Pow2(i) && 0 <= u.rank < Pow2(2 * (n - i))
      && HilbRun(u.cell, u.rank, i, n) == p
    decreases n - i
  {
    if i < n {
      RunOfUnwind(p, i + 1, n);
      UnwindStep(p, i, n);
    }
  }

  /** One more iteration of `RunOfUnwind`: from iteration i + 1 back to i. */
  lemma UnwindStep(p: Cell, i: nat, n: nat)
    requires i < n
    requires var top := Unwind(p, i + 1, n);
      && 0 <= top.cell.x < Pow2(i + 1) && 0 <= top.cell.y < Pow2(i + 1) && 0 <= top.rank < Pow2(2 * (n - (i + 1)))
      && HilbRun(top.cell, top.rank, i + 1, n) == p
    ensures var u := Unwind(p, i, n);
      && 0 <= u.cell.x < Pow2(i) && 0 <= u.cell.y < Pow2(i) && 0 <= u.rank < Pow2(2 * (n - i))
      && HilbRun(u.cell, u.rank, i, n) == p
  {
    var top := Unwind(p, i + 1, n);
    var s := Pow2(i);
    var u := UnStep(top.cell, s);
    var t := 4 * top.rank + u.rank;
    assert Unwind(p, i, n) == Placed(u.cell, t);
    DigitSplit(top.rank, u.rank);
    StepOfUnStep(top.cell, s, t);
    assert HilbRun(u.cell, t, i, n) == HilbRun(top.cell, top.rank, i + 1, n);
    Pow4Step(n - (i + 1));
    assert 2 * (n - (i + 1)) + 2 == 2 * (n - i);
  }

  /** Appending the base-4 digit d to q and dropping it again. */
  lemma DigitSplit(q: int, d: int)
    requires q >= 0 && 0 <= d < 4
    ensures (4 * q + d) % 4 == d && TruncDiv(4 * q + d, 4) == q
  {
    DivModUnique(4 * q + d, 4, q, d);
  }

  /** A number below 4^k unpacks into a cell of the 2^k square. */
  lemma Unpack(r: int, k: nat)
    requires 0 <= r < Pow2(2 * k)
    ensures 0 <= r % Pow2(k) < Pow2(k) && 0 <= r / Pow2(k) < Pow2(k)
    ensures r == r % Pow2(k) + (r / Pow2(k)) * Pow2(k)
  {
    var n := Pow2(k);
    Pow2Add(k, k);
    DivBelow(r, n, n);
    DivModSplit(r, n);
  }

  /** Unwinding a cell of the 2^k square all the way leads back to the origin. */
  lemma UnwindSquare(c: Cell, k: nat)
    requires 0 <= c.x < Pow2(k) && 0 <= c.y < Pow2(k)
    ensures var u := Unwind(c, 0, k);
      u.cell == Cell(0, 0) && 0 <= u.rank < Pow2(2 * k) && HilbRun(Cell(0, 0), u.rank, 0, k) == c
  {
    RunOfUnwind(c, 0, k);
    assert Pow2(0) == 1;
  }

  /**
   * The index whose `hilbidx` is r: unpack x = r mod 2^n and y = r / 2^n,
   * then unwind from the full square.
   */
  function HilbRank(r: int, sidePow: nat): int
  {
    Unwind(Cell(r % Pow2(sidePow), r / Pow2(sidePow)), 0, sidePow).rank
  }

  /** `HilbRank` undoes `hilbidx` on [0, 4^n): no two indices share a cell. */
  lemma HilbRankOfIdx(index: int, sidePow: nat)
    requires 0 <= index < Pow2(2 * sidePow)
    ensures var p := HilbRun(Cell(0, 0), index, 0, sidePow);
      HilbRank(p.x + p.y * Pow2(sidePow), sidePow) == index
  {
    var p := HilbRun(Cell(0, 0), index, 0, sidePow);
    HilbRunBounds(Cell(0, 0), index, 0, sidePow);
    var r := p.x + p.y * Pow2(sidePow);
    PackUnpack(p, sidePow);
    assert HilbRank(r, sidePow) == Unwind(p, 0, sidePow).rank;
    UnwindOrigin(index, sidePow);
  }

  /** Unpacking a packed cell of the 2^k square gives the cell back. */
  lemma PackUnpack(c: Cell, k: nat)
    requires 0 <= c.x < Pow2(k) && 0 <= c.y < Pow2(k)
    ensures var r := c.x + c.y * Pow2(k); Cell(r % Pow2(k), r / Pow2(k)) == c
  {
    DivModUnique(c.x + c.y * Pow2(k), Pow2(k), c.y, c.x);
  }

  /** Unwinding the whole run from the origin gives back the index. */
  lemma UnwindOrigin(index: int, k: nat)
    requires 0 <= index < Pow2(2 * k)
    ensures Unwind(HilbRun(Cell(0, 0), index, 0, k), 0, k).rank == index
  {
    assert Pow2(0) == 1;
    UnwindOfRun(Cell(0, 0), index, 0, k);
  }

  /** Every packed cell of the square is `hilbidx` of an index in [0, 4^n). */
  lemma HilbIdxOfRank(r: int, sidePow: nat)
    requires 0 <= r < Pow2(2 * sidePow)
    ensures 0 <= HilbRank(r, sidePow) < Pow2(2 * sidePow)
    ensures var p := HilbRun(Cell(0, 0), HilbRank(r, sidePow), 0, sidePow);
      p.x + p.y * Pow2(sidePow) == r
  {
    Unpack(r, sidePow);
    UnwindSquare(Cell(r % Pow2(sidePow), r / Pow2(sidePow)), sidePow);
  }
}

=== FILE: linearize.dfy ===
/**
 * `Image::hilbTo1d` and `Image::hilbTo2d` (src/main.cpp:173-198): the
 * interleaved raster of `channels` samples per pixel is rearranged so that
 * pixels follow the generalized Hilbert curve, and back.  Channel k of pixel
 * (x, y) lives at slot channels * (x + width * y) + k of the raster and at
 * slot channels * GilbIdx(x, y) + k of the curve-ordered buffer.  Both
 * buffers hold width * height * channels samples, the `rawLength` that
 * loading an image sets up (src/main.cpp:118-119).
 */
module Linearize {
  import opened Bits
  import opened Gilbert

  /** The raster position of pixel (x, y) (src/main.cpp:177). */
  function RowMajor(x: int, y: int, width: int): int
  {
    x + width * y
  }

  /** The pixel at raster position p. */
  function RasterCell(p: int, width: int): Cell
    requires width >= 1
  {
    Cell(p % width, p / width)
  }

  /** Both buffers hold one slot per channel of every pixel. */
  predicate Shaped(width: int, height: int, channels: int)
  {
    width >= 1 && height >= 1 && channels >= 1
  }

  /** Slot `channels * g + k` holds channel k of pixel number g. */
  lemma SlotSplit(g: int, k: int, channels: int)
    requires channels >= 1 && 0 <= k < channels
    ensures (channels * g + k) / channels == g && (channels * g + k) % channels == k
  {
    DivModUnique(channels * g + k, channels, g, k);
  }

  /** The slots of pixels below n stay below channels * n. */
  lemma SlotBelow(g: int, k: int, channels: int, n: int)
    requires 0 <= g < n && 0 <= k < channels
    ensures 0 <= channels * g + k < channels * n
  {
    MulLe(g, n - 1, channels);
  }

  /** Every slot below channels * n belongs to a pixel below n. */
  lemma SlotOf(q: int, channels: int, n: int)
    requires channels >= 1 && 0 <= q < channels * n
    ensures 0 <= q / channels < n && 0 <= q % channels < channels
    ensures q == channels * (q / channels) + q % channels
  {
    DivBelow(q, channels, n);
    DivModSplit(q, channels);
  }

  /** Raster positions of the pixels are exactly [0, width * height). */
  lemma RowMajorBelow(x: int, y: int, width: int, height: int)
    requires 0 <= x < width && 0 <= y < height
    ensures 0 <= RowMajor(x, y, width) < width * height
  {
    MulLe(y, height - 1, width);
  }

  lemma RasterOfRowMajor(x: int, y: int, width: int)
    requires 0 <= x < width
    ensures RasterCell(RowMajor(x, y, width), width) == Cell(x, y)
  {
    DivModUnique(x + width * y, width, y, x);
  }

  lemma RowMajorOfRaster(p: int, width: int, height: int)
    requires width >= 1 && 0 <= p < width * height
    ensures var c := RasterCell(p, width); 0 <= c.x < width && 0 <= c.y < height
    ensures var c := RasterCell(p, width); RowMajor(c.x, c.y, width) == p
  {
    DivBelow(p, width, height);
    DivModSplit(p, width);
  }

  /** The raster slot that `hilbTo1d` copies into curve slot q. */
  function RasterSlot(q: int, width: int, height: int, channels: int): (r: int)
    requires Shaped(width, height, channels) && 0 <= q < channels * (width * height)
    ensures 0 <= r < channels * (width * height)
  {
    SlotOf(q, channels, width * height);
    var c := GilbCell(q / channels, width, height);
    RowMajorBelow(c.x, c.y, width, height);
    SlotBelow(RowMajor(c.x, c.y, width), q % channels, channels, width * height);
    channels * RowMajor(c.x, c.y, width) + q % channels
  }

  /** The curve slot that `hilbTo2d` copies into raster slot q. */
  function CurveSlot(q: int, width: int, height: int, channels: int): (r: int)
    requires Shaped(width, height, channels) && 0 <= q < channels * (width * height)
    ensures 0 <= r < channels * (width * height)
  {
    SlotOf(q, channels, width * height);
    RowMajorOfRaster(q / channels, width, height);
    var c := RasterCell(q / channels, width);
    SlotBelow(GilbIdx(c.x, c.y, width, height), q % channels, channels, width * height);
    channels * GilbIdx(c.x, c.y, width, height) + q % channels
  }

  /**
   * Models `hilbTo1d` (src/main.cpp:173-185): the curve-ordered buffer,
   * of the raster's length.
   */
  function HilbTo1d<T>(raw: seq<T>, width: int, height: int, channels: int): (r: seq<T>)
    requires Shaped(width, height, channels) && |raw| == channels * (width * height)
    ensures |r| == |raw|
  {
    seq(|raw|, q requires 0 <= q < |raw| => raw[RasterSlot(q, width, height, channels)])
  }

  /**
   * Models `hilbTo2d` (src/main.cpp:187-198): the raster rebuilt from a
   * curve-ordered buffer; every raster slot is overwritten.
   */
  function HilbTo2d<T>(image1d: seq<T>, width: int, height: int, channels: int): (r: seq<T>)
    requires Shaped(width, height, channels) && |image1d| == channels * (width * height)
    ensures |r| == |image1d|
  {
    seq(|image1d|, q requires 0 <= q < |image1d| => image1d[CurveSlot(q, width, height, channels)])
  }

  /**
   * The copy of `hilbTo1d` (src/main.cpp:177-181): the write index lies
   * in the buffer and receives channel k of pixel (x, y).
   */
  lemma HilbTo1dCopies<T>(raw: seq<T>, width: int, height: int, channels: int, x: int, y: int, k: int)
    requires Shaped(width, height, channels) && |raw| == channels * (width * height)
    requires 0 <= x < width && 0 <= y < height && 0 <= k < channels
    ensures 0 <= channels * GilbIdx(x, y, width, height) + k < |raw|
    ensures 0 <= channels * RowMajor(x, y, width) + k < |raw|
    ensures HilbTo1d(raw, width, height, channels)[channels * GilbIdx(x, y, width, height) + k]
         == raw[channels * RowMajor(x, y, width) + k]
  {
    var g := GilbIdx(x, y, width, height);
    SlotBelow(g, k, channels, width * height);
    RowMajorBelow(x, y, width, height);
    SlotBelow(RowMajor(x, y, width), k, channels, width * height);
    SlotSplit(g, k, channels);
    GilbCellOfIdx(x, y, width, height);
    assert RasterSlot(channels * g + k, width, height, channels) == channels * RowMajor(x, y, width) + k;
  }

  /**
   * The copy of `hilbTo2d` (src/main.cpp:190-194): raster slot of channel
   * k of pixel (x, y) receives the curve slot of the same sample.
   */
  lemma HilbTo2dCopies<T>(image1d: seq<T>, width: int, height: int, channels: int, x: int, y: int, k: int)
    requires Shaped(width, height, channels) && |image1d| == channels * (width * height)
    requires 0 <= x < width && 0 <= y < height && 0 <= k < channels
    ensures 0 <= channels * RowMajor(x, y, width) + k < |image1d|
    ensures 0 <= channels * GilbIdx(x, y, width, height) + k < |image1d|
    ensures HilbTo2d(image1d, width, height, channels)[channels * RowMajor(x, y, width) + k]
         == image1d[channels * GilbIdx(x, y, width, height) + k]
  {
    var p := RowMajor(x, y, width);
    RowMajorBelow(x, y, width, height);
    SlotBelow(p, k, channels, width * height);
    SlotBelow(GilbIdx(x, y, width, height), k, channels, width * height);
    SlotSplit(p, k, channels);
    RasterOfRowMajor(x, y, width);
    assert CurveSlot(channels * p + k, width, height, channels) == channels * GilbIdx(x, y, width, height) + k;
  }

  /** Each curve slot is read back from the raster slot it was copied from. */
  lemma CurveOfRaster(q: int, width: int, height: int, channels: int)
    requires Shaped(width, height, channels) && 0 <= q < channels * (width * height)
    ensures RasterSlot(CurveSlot(q, width, height, channels), width, height, channels) == q
  {
    SlotOf(q, channels, width * height);
    RowMajorOfRaster(q / channels, width, height);
    var c := RasterCell(q / channels, width);
    var g := GilbIdx(c.x, c.y, width, height);
    SlotSplit(g, q % channels, channels);
    GilbCellOfIdx(c.x, c.y, width, height);
  }

  /** Each raster slot is read back from the curve slot it was copied to. */
  lemma RasterOfCurve(q: int, width: int, height: int, channels: int)
    requires Shaped(width, height, channels) && 0 <= q < channels * (width * height)
    ensures CurveSlot(RasterSlot(q, width, height, channels), width, height, channels) == q
  {
    SlotOf(q, channels, width * height);
    var c := GilbCell(q / channels, width, height);
    var p := RowMajor(c.x, c.y, width);
    SlotSplit(p, q % channels, channels);
    RasterOfRowMajor(c.x, c.y, width);
    GilbIdxOfCell(q / channels, width, height);
  }

  /** `hilbTo2d` after `hilbTo1d` leaves the raster unchanged. */
  lemma HilbTo2dOfHilbTo1d<T>(raw: seq<T>, width: int, height: int, channels: int)
    requires Shaped(width, height, channels) && |raw| == channels * (width * height)
    ensures HilbTo2d(HilbTo1d(raw, width, height, channels), width, height, channels) == raw
  {
    var r := HilbTo2d(HilbTo1d(raw, width, height, channels), width, height, channels);
    forall q | 0 <= q < |raw|
      ensures r[q] == raw[q]
    {
      CurveOfRaster(q, width, height, channels);
    }
  }

  /** `hilbTo1d` after `hilbTo2d` gives back the curve-ordered buffer. */
  lemma HilbTo1dOfHilbTo2d<T>(image1d: seq<T>, width: int, height: int, channels: int)
    requires Shaped(width, height, channels) && |image1d| == channels * (width * height)
    ensures HilbTo1d(HilbTo2d(image1d, width, height, channels), width, height, channels) == image1d
  {
    var r := HilbTo1d(HilbTo2d(image1d, width, height, channels), width, height, channels);
    forall q | 0 <= q < |image1d|
      ensures r[q] == image1d[q]
    {
      RasterOfCurve(q, width, height, channels);
    }
  }
}

=== FILE: segments.dfy ===
/**
 * Cutting the curve-ordered buffer into segments (`Image::segmentRaw`,
 * src/main.cpp:130-141) and sampling each segment into a luma plane and two
 * chroma planes (the `Segment` constructor, src/main.cpp:39-55).  The
 * segment length is a parameter: the source derives it from a square root.
 * The colour conversion is a parameter too: its arithmetic is floating point.
 */
module Segmenting {
  import opened Bits

  /** The outcome of an operation that can fail. */
  datatype Result<+R, +E> = Success(value: R) | Failure(error: E)

  /** Slots [start, start + len) of the curve-ordered buffer. */
  datatype Span = Span(start: int, len: int)

  function End(s: Span): int
  {
    s.start + s.len
  }

  /** Ceiling division for a positive divisor. */
  function CeilDiv(a: int, d: int): int
    requires d >= 1
  {
    (a + d - 1) / d
  }

  /**
   * The segments `segmentRaw` creates from slot `from` on: one every segLen
   * slots, the last one clipped at the end of the buffer (main.cpp:134-139).
   */
  function SegmentsFrom(from: int, rawLength: int, segLen: int): seq<Span>
    requires segLen >= 1
    decreases rawLength - from
  {
    if from >= rawLength then []
    else [Span(from, Min(segLen, rawLength - from))] + SegmentsFrom(from + segLen, rawLength, segLen)
  }

  /**
   * Models `segmentRaw` (main.cpp:130-141): the segments in creation
   * order, their count, the final value of the `segLen` member, which the
   * last, clipped segment overwrites, and the outcome of the `Segment`
   * constructor run on each of them with yScale 1 and cScale 16
   * (main.cpp:137).  The constructor reads neither `i` nor `segLen` back,
   * so the spans are cut first and then constructed in the same order.
   * The loop only ends for a positive segment length, unless the buffer
   * is empty.
   */
  method SegmentRaw<T>(image1d: seq<T>, channels: int, conv: Convert<T>, rawLength: nat, segLen0: int)
    returns (segs: seq<Span>, built: seq<Result<Segment<T>, SegmentError>>, count: int, segLen: int)
    requires channels >= 1
    requires rawLength == 0 || segLen0 >= 1
    ensures count == |segs| == |built|
    ensures rawLength == 0 ==> segs == [] && segLen == segLen0
    ensures rawLength > 0 ==> segs == SegmentsFrom(0, rawLength, segLen0) && segLen == segs[|segs| - 1].len
    ensures forall m {:trigger built[m]} :: 0 <= m < |segs| ==>
      segs[m].start >= 0 && segs[m].len >= 1 && built[m] == NewSegment(image1d, channels, segs[m].len, segs[m].start, 1, 16, conv)
  {
    segs, count, segLen := CutSpans(rawLength, segLen0);
    built := ConstructAll(image1d, channels, conv, segs);
  }

  /** The `Segment` constructor run on each span in turn, as main.cpp:137 does. */
  method ConstructAll<T>(image1d: seq<T>, channels: int, conv: Convert<T>, segs: seq<Span>)
    returns (built: seq<Result<Segment<T>, SegmentError>>)
    requires channels >= 1 && forall m :: 0 <= m < |segs| ==> segs[m].start >= 0 && segs[m].len >= 0
    ensures |built| == |segs|
    ensures forall m {:trigger built[m]} :: 0 <= m < |segs| ==>
      built[m] == NewSegment(image1d, channels, segs[m].len, segs[m].start, 1, 16, conv)
  {
    built := [];
    var m := 0;
    while m < |segs|
      invariant 0 <= m <= |segs| && |built| == m
      invariant forall k {:trigger built[k]} :: 0 <= k < m ==> built[k] == NewSegment(image1d, channels, segs[k].len, segs[k].start, 1, 16, conv)
    {
      var seg := Construct(image1d, channels, segs[m].len, segs[m].start, 1, 16, conv);
      built := built + [seg];
      m := m + 1;
    }
  }

  /**
   * The spans of the `segmentRaw` loop (main.cpp:132-139), their count and
   * the final `segLen`.
   */
  method CutSpans(rawLength: nat, segLen0: int) returns (segs: seq<Span>, count: int, segLen: int)
    requires rawLength == 0 || segLen0 >= 1
    ensures count == |segs|
    ensures rawLength == 0 ==> segs == [] && segLen == segLen0
    ensures rawLength > 0 ==> segs == SegmentsFrom(0, rawLength, segLen0) && segLen == segs[|segs| - 1].len
    ensures forall m :: 0 <= m < |segs| ==> segs[m].start >= 0 && segs[m].len >= 1
  {
    segLen := segLen0;
    var i := 0;
    count := 0;
    segs := [];
    while i < rawLength
      invariant 0 <= i <= rawLength
      invariant i < rawLength ==> segLen == segLen0
      invariant rawLength > 0 ==> segs + SegmentsFrom(i, rawLength, segLen0) == SegmentsFrom(0, rawLength, segLen0)
      invariant count == |segs|
      invariant i == 0 ==> segs == [] && segLen == segLen0
      invariant i > 0 ==> |segs| > 0 && segLen == segs[|segs| - 1].len
      invariant forall m :: 0 <= m < |segs| ==> segs[m].start >= 0 && segs[m].len >= 1
      decreases rawLength - i
    {
      count := count + 1;
      if i + segLen > rawLength {
        segLen := rawLength - i;
      }
      SegmentsStep(segs, i, rawLength, segLen0);
      segs := segs + [Span(i, segLen)];
      i := i + segLen;
    }
  }

  /**
   * One iteration of the `segmentRaw` loop: appending the segment at slot
   * i, clipped at the buffer end, keeps the segments created so far a
   * prefix of the whole tiling.
   */
  lemma SegmentsStep(done: seq<Span>, i: int, rawLength: int, segLen: int)
    requires segLen >= 1 && i < rawLength
    requires done + SegmentsFrom(i, rawLength, segLen) == SegmentsFrom(0, rawLength, segLen)
    ensures var l := Min(segLen, rawLength - i);
      (done + [Span(i, l)]) + SegmentsFrom(i + l, rawLength, segLen) == SegmentsFrom(0, rawLength, segLen)
  {
    var l := Min(segLen, rawLength - i);
    SegmentsFromHead(i, rawLength, segLen);
    var rest := SegmentsFrom(i + l, rawLength, segLen);
    assert (done + [Span(i, l)]) + rest == done + ([Span(i, l)] + rest);
  }

  /** The first segment from slot i, clipped at the buffer end, and the segments after it. */
  lemma SegmentsFromHead(i: int, rawLength: int, segLen: int)
    requires segLen >= 1 && i < rawLength
    ensures var l := Min(segLen, rawLength - i);
      SegmentsFrom(i, rawLength, segLen) == [Span(i, l)] + SegmentsFrom(i + l, rawLength, segLen)
  {
    if rawLength - i < segLen {
      assert SegmentsFrom(rawLength, rawLength, segLen) == [] == SegmentsFrom(i + segLen, rawLength, segLen);
    }
  }

  /**
   * The segments tile [from, rawLength): the first starts at `from`, each
   * starts where the previous ends, all but the last have length segLen,
   * and the last is non-empty, at most segLen long, and ends the buffer.
   */
  lemma {:induction false} SegmentsTile(from: int, rawLength: int, segLen: int)
    requires segLen >= 1
    ensures var s := SegmentsFrom(from, rawLength, segLen);
      from < rawLength <==> |s| >= 1
    ensures var s := SegmentsFrom(from, rawLength, segLen);
      |s| >= 1 ==> s[0].start == from && 1 <= s[|s| - 1].len <= segLen && End(s[|s| - 1]) == rawLength
    ensures var s := SegmentsFrom(from, rawLength, segLen);
      forall m :: 0 <= m < |s| - 1 ==> s[m].len == segLen && s[m + 1].start == End(s[m])
    decreases rawLength - from
  {
    if from < rawLength {
      SegmentsTile(from + segLen, rawLength, segLen);
    }
  }

  /** Segment m starts at from + m * segLen and is clipped at the buffer end. */
  lemma {:induction false} SegmentAt(from: int, rawLength: int, segLen: int, m: int)
    requires segLen >= 1 && 0 <= m < |SegmentsFrom(from, rawLength, segLen)|
    ensures SegmentsFrom(from, rawLength, segLen)[m]
         == Span(from + m * segLen, Min(segLen, rawLength - (from + m * segLen)))
    decreases m
  {
    if m > 0 {
      SegmentAt(from + segLen, rawLength, segLen, m - 1);
      assert from + segLen + (m - 1) * segLen == from + m * segLen;
    }
  }

  /** (x + d) / d is one more than x / d. */
  lemma DivPlusOne(x: int, d: int)
    requires d >= 1
    ensures (x + d) / d == x / d + 1
  {
    DivModSplit(x, d);
    DivModUnique(x + d, d, x / d + 1, x % d);
  }

  /** `segmentRaw` creates ceil((rawLength - from) / segLen) segments. */
  lemma {:induction false} SegmentCount(from: int, rawLength: int, segLen: int)
    requires segLen >= 1
    ensures |SegmentsFrom(from, rawLength, segLen)| == if from >= rawLength then 0 else CeilDiv(rawLength - from, segLen)
    decreases rawLength - from
  {
    if from < rawLength {
      SegmentCount(from + segLen, rawLength, segLen);
      var d := rawLength - from;
      if from + segLen >= rawLength {
        DivModUnique(d + segLen - 1, segLen, 1, d - 1);
      } else {
        DivPlusOne(d - segLen + segLen - 1, segLen);
      }
    }
  }

  /** Every slot of [from, rawLength) lies in some segment. */
  lemma {:induction false} SegmentsCover(from: int, rawLength: int, segLen: int, p: int) returns (m: int)
    requires segLen >= 1 && from <= p < rawLength
    ensures var s := SegmentsFrom(from, rawLength, segLen);
      0 <= m < |s| && s[m].start <= p < End(s[m])
    decreases rawLength - from
  {
    if p < from + segLen {
      m := 0;
    } else {
      var k := SegmentsCover(from + segLen, rawLength, segLen, p);
      m := k + 1;
    }
  }

  /** Segments do not overlap: each ends before any later one starts. */
  lemma {:induction false} SegmentsDisjoint(from: int, rawLength: int, segLen: int, m1: int, m2: int)
    requires segLen >= 1
    requires 0 <= m1 < m2 < |SegmentsFrom(from, rawLength, segLen)|
    ensures var s := SegmentsFrom(from, rawLength, segLen); End(s[m1]) <= s[m2].start
    decreases m1
  {
    var s := SegmentsFrom(from, rawLength, segLen);
    if m1 > 0 {
      SegmentsDisjoint(from + segLen, rawLength, segLen, m1 - 1, m2 - 1);
    } else {
      SegmentStartsAbove(from + segLen, rawLength, segLen, m2 - 1);
    }
  }

  /** No segment starts before the slot the cutting starts from, and none is empty. */
  lemma {:induction false} SegmentStartsAbove(from: int, rawLength: int, segLen: int, m: int)
    requires segLen >= 1 && 0 <= m < |SegmentsFrom(from, rawLength, segLen)|
    ensures from <= SegmentsFrom(from, rawLength, segLen)[m].start
    ensures SegmentsFrom(from, rawLength, segLen)[m].len >= 1
    decreases m
  {
    if m > 0 {
      SegmentStartsAbove(from + segLen, rawLength, segLen, m - 1);
    }
  }

  /** The sampling positions of a plane: from, from + step, ... below end (main.cpp:47, 51). */
  function Positions(from: int, end: int, step: int): seq<int>
    requires step >= 1
    decreases end - from
  {
    if from >= end then [] else [from] + Positions(from + step, end, step)
  }

  /** Position m is from + m * step, and it lies in [from, end). */
  lemma {:induction false} PositionAt(from: int, end: int, step: int, m: int)
    requires step >= 1 && 0 <= m < |Positions(from, end, step)|
    ensures Positions(from, end, step)[m] == from + m * step
    ensures from <= Positions(from, end, step)[m] < end
    decreases m
  {
    if m > 0 {
      PositionAt(from + step, end, step, m - 1);
      assert from + step + (m - 1) * step == from + m * step;
    }
  }

  /** A plane samples the segment ceil(length / step) times. */
  lemma {:induction false} PositionCount(from: int, end: int, step: int)
    requires step >= 1
    ensures |Positions(from, end, step)| == if from >= end then 0 else CeilDiv(end - from, step)
    decreases end - from
  {
    if from < end {
      PositionCount(from + step, end, step);
      var d := end - from;
      if from + step >= end {
        DivModUnique(d + step - 1, step, 1, d - 1);
      } else {
        DivPlusOne(d - step + step - 1, step);
      }
    }
  }

  /** The YCbCr conversion of one pixel, and the value `resize` fills with. */
  datatype Convert<!T> = Convert(zero: T, luma: (T, T, T) -> T, blue: (T, T, T) -> T, red: (T, T, T) -> T)

  /** The three planes of a segment. */
  datatype Segment<T> = Segment(y: seq<T>, cb: seq<T>, cr: seq<T>)

  datatype SegmentError =
    | EmptyImage   // `throw` on an empty buffer (main.cpp:44)
    | OutOfRange   // a sample read at or beyond the end of the buffer

  /** Every sample, which reads slots p, p + 1 and p + 2, stays inside a buffer of the given size. */
  predicate ReadsInside(pos: seq<int>, size: int)
  {
    forall m :: 0 <= m < |pos| ==> 0 <= pos[m] && pos[m] + 2 < size
  }

  /** The samples of a plane, one per position. */
  function Plane<T>(image1d: seq<T>, pos: seq<int>, f: (T, T, T) -> T): (r: seq<T>)
    requires ReadsInside(pos, |image1d|)
    ensures |r| == |pos|
  {
    seq(|pos|, m requires 0 <= m < |pos| => f(image1d[pos[m]], image1d[pos[m] + 1], image1d[pos[m] + 2]))
  }

  function Zeros<T>(n: int, zero: T): (r: seq<T>)
    requires n >= 0
    ensures |r| == n && forall m :: 0 <= m < n ==> r[m] == zero
  {
    seq(n, _ => zero)
  }

  /**
   * The `Segment` constructor (main.cpp:39-55) as a function: each plane
   * is `resize`d to segLen / scale default samples, then one sample is
   * appended per position.  An empty buffer is an error, whatever the
   * segment; so is a sample that would read past the end of the buffer.
   * A constructed segment's chroma planes have the same length, and its
   * luma plane is at least as long as its `resize`d prefix.
   */
  function NewSegment<T>(image1d: seq<T>, channels: int, segLen: int, index: int, yScale: int, cScale: int, conv: Convert<T>)
    : (r: Result<Segment<T>, SegmentError>)
    requires channels >= 1 && yScale >= 1 && cScale >= 1 && segLen >= 0 && index >= 0
    ensures r == Failure(EmptyImage) <==> |image1d| == 0
    ensures r.Success? ==> |r.value.cb| == |r.value.cr| && segLen / yScale <= |r.value.y|
  {
    var ys := Positions(index, index + segLen, channels * yScale);
    var cs := Positions(index, index + segLen, channels * cScale);
    if |image1d| == 0 then Failure(EmptyImage)
    else if !ReadsInside(ys, |image1d|) || !ReadsInside(cs, |image1d|) then Failure(OutOfRange)
    else
      var zy, zc := Zeros(segLen / yScale, conv.zero), Zeros(segLen / cScale, conv.zero);
      Success(Segment(zy + Plane(image1d, ys, conv.luma), zc + Plane(image1d, cs, conv.blue), zc + Plane(image1d, cs, conv.red)))
  }

  /**
   * One sampling loop of the constructor (main.cpp:47-49 or 51-54): starting
   * from the `resize`d plane, append one converted pixel every `step` slots.
   */
  method FillPlane<T>(image1d: seq<T>, index: int, segLen: int, step: int, start: seq<T>, f: (T, T, T) -> T)
    returns (plane: seq<T>, ok: bool)
    requires index >= 0 && step >= 1
    ensures ok <==> ReadsInside(Positions(index, index + segLen, step), |image1d|)
    ensures ok ==> plane == start + Plane(image1d, Positions(index, index + segLen, step), f)
  {
    ghost var all := Positions(index, index + segLen, step);
    ghost var done: seq<int> := [];
    plane := start;
    var i := index;
    while i < index + segLen
      invariant i >= index && done + Positions(i, index + segLen, step) == all
      invariant ReadsInside(done, |image1d|)
      invariant plane == start + Plane(image1d, done, f)
      decreases index + segLen - i
    {
      if i + 2 >= |image1d| {
        assert all[|done|] == i;
        return plane, false;
      }
      PlaneSnoc(image1d, done, i, f);
      PositionsSnoc(done, i, index + segLen, step);
      done := done + [i];
      plane := plane + [f(image1d[i], image1d[i + 1], image1d[i + 2])];
      i := i + step;
    }
    ok := true;
  }

  /** Taking the next position off the remaining ones keeps the sampled positions a prefix. */
  lemma PositionsSnoc(done: seq<int>, i: int, end: int, step: int)
    requires step >= 1 && i < end
    ensures (done + [i]) + Positions(i + step, end, step) == done + Positions(i, end, step)
  {
    var rest := Positions(i + step, end, step);
    assert Positions(i, end, step) == [i] + rest;
    assert (done + [i]) + rest == done + ([i] + rest);
  }

  /** Sampling one more position appends its converted pixel to the plane. */
  lemma PlaneSnoc<T>(image1d: seq<T>, done: seq<int>, i: int, f: (T, T, T) -> T)
    requires ReadsInside(done, |image1d|) && 0 <= i && i + 2 < |image1d|
    ensures ReadsInside(done + [i], |image1d|)
    ensures Plane(image1d, done + [i], f) == Plane(image1d, done, f) + [f(image1d[i], image1d[i + 1], image1d[i + 2])]
  {
  }

  /**
   * Models the `Segment` constructor (main.cpp:39-55) step by step, as
   * `segmentRaw` calls it with yScale 1 and cScale 16 (main.cpp:137).
   */
  method Construct<T>(image1d: seq<T>, channels: int, segLen: int, index: int, yScale: int, cScale: int, conv: Convert<T>)
    returns (r: Result<Segment<T>, SegmentError>)
    requires channels >= 1 && yScale >= 1 && cScale >= 1 && segLen >= 0 && index >= 0
    ensures r == NewSegment(image1d, channels, segLen, index, yScale, cScale, conv)
  {
    var y := Zeros(segLen / yScale, conv.zero);
    var cb := Zeros(segLen / cScale, conv.zero);
    var cr := Zeros(segLen / cScale, conv.zero);
    if |image1d| == 0 {
      return Failure(EmptyImage);
    }
    var ok;
    y, ok := FillPlane(image1d, index, segLen, channels * yScale, y, conv.luma);
    if !ok {
      return Failure(OutOfRange);
    }
    var okB, okR;
    cb, okB := FillPlane(image1d, index, segLen, channels * cScale, cb, conv.blue);
    cr, okR := FillPlane(image1d, index, segLen, channels * cScale, cr, conv.red);
    if !okB {
      return Failure(OutOfRange);
    }
    r := Success(Segment(y, cb, cr));
  }

  /**
   * The planes as constructed: the luma plane holds segLen / yScale default
   * samples and then one sample per position, ceil(segLen / (channels *
   * yScale)) in all, sample m being converted from the pixel at
   * index + m * channels * yScale; likewise for the chroma planes.
   */
  lemma PlaneSizes<T>(image1d: seq<T>, channels: int, segLen: int, index: int, yScale: int, cScale: int, conv: Convert<T>)
    requires channels >= 1 && yScale >= 1 && cScale >= 1 && segLen >= 0 && index >= 0
    requires NewSegment(image1d, channels, segLen, index, yScale, cScale, conv).Success?
    ensures var s := NewSegment(image1d, channels, segLen, index, yScale, cScale, conv).value;
      && |s.y| == segLen / yScale + CeilDiv(segLen, channels * yScale)
      && |s.cb| == segLen / cScale + CeilDiv(segLen, channels * cScale)
      && |s.cr| == |s.cb|
    ensures var s := NewSegment(image1d, channels, segLen, index, yScale, cScale, conv).value;
      forall m :: 0 <= m < segLen / yScale ==> s.y[m] == conv.zero
  {
    PositionCount(index, index + segLen, channels * yScale);
    PositionCount(index, index + segLen, channels * cScale);
  }

  /** Sample m of the luma plane converts the pixel at index + m * step. */
  lemma LumaSample<T>(image1d: seq<T>, channels: int, segLen: int, index: int, yScale: int, cScale: int, conv: Convert<T>, m: int)
    requires channels >= 1 && yScale >= 1 && cScale >= 1 && segLen >= 0 && index >= 0
    requires NewSegment(image1d, channels, segLen, index, yScale, cScale, conv).Success?
    requires 0 <= m < |Positions(index, index + segLen, channels * yScale)|
    ensures var s := NewSegment(image1d, channels, segLen, index, yScale, cScale, conv).value;
      var p := index + m * (channels * yScale);
      && 0 <= p && p + 2 < |image1d|
      && s.y[segLen / yScale + m] == conv.luma(image1d[p], image1d[p + 1], image1d[p + 2])
  {
    var ys := Positions(index, index + segLen, channels * yScale);
    PositionAt(index, index + segLen, channels * yScale, m);
    assert ys[m] == index + m * (channels * yScale);
  }

  /**
   * When the segment length is a multiple of `channels` (at least 3) and
   * the positions advance by whole pixels, every sample reads slots p,
   * p + 1, p + 2 of its own segment: the last position starts a full
   * pixel before the end.
   */
  lemma {:induction false} AlignedReadsInSegment(from: int, end: int, channels: int, step: int, m: int)
    requires channels >= 3 && step >= 1 && step % channels == 0 && (end - from) % channels == 0
    requires 0 <= m < |Positions(from, end, step)|
    ensures Positions(from, end, step)[m] + 2 < end
    decreases m
  {
    if m == 0 {
      assert end - from >= channels by {
        DivModSplit(end - from, channels);
        if (end - from) / channels <= 0 {
          MulLe((end - from) / channels, 0, channels);
        } else {
          MulAtLeast(channels, (end - from) / channels);
        }
      }
    } else {
      ModDiff(end - from, step, channels);
      assert end - (from + step) == end - from - step;
      AlignedReadsInSegment(from + step, end, channels, step, m - 1);
    }
  }

  // ---------------------------------------------------------------------
  // Segment lengths that are not whole pixels.

  /**
   * For a 4097-pixel image, three channels, the length computed at
   * main.cpp:131 is 12289 slots, not a multiple of 3.  The second segment
   * is clipped to [12289, 12291), and its only luma sample reads slot
   * 12291, one past the end of the buffer.
   */
  lemma UnalignedReadsPastEnd<T>(image1d: seq<T>, conv: Convert<T>)
    requires |image1d| == 12291
    ensures SegmentsFrom(0, 12291, 12289) == [Span(0, 12289), Span(12289, 2)]
    ensures NewSegment(image1d, 3, 2, 12289, 1, 16, conv) == Failure(OutOfRange)
  {
    assert SegmentsFrom(12289 + 12289, 12291, 12289) == [];
    assert SegmentsFrom(12289, 12291, 12289) == [Span(12289, 2)];
    var ys := Positions(12289, 12291, 3);
    assert Positions(12292, 12291, 3) == [];
    assert ys == [12289];
    assert ys[0] + 2 == 12291;
  }

  /**
   * A segment length rounded down to whole pixels (and at least one
   * pixel): the length `segmentRaw` evidently intends.
   */
  function AlignedSegLen(segLen: int, channels: int): (r: int)
    requires segLen >= 1 && channels >= 1
    ensures r >= 1 && r % channels == 0
    ensures r <= segLen || r == channels
  {
    if segLen < channels then channels
    else
      DivModSplit(segLen, channels);
      MulAtLeast(channels, segLen / channels);
      DivModUnique(segLen - segLen % channels, channels, segLen / channels, 0);
      segLen - segLen % channels
  }

  /**
   * With whole-pixel segments over a buffer of whole pixels, every segment
   * starts and ends on a pixel boundary.
   */
  lemma {:induction false} SegmentsAligned(from: int, rawLength: int, segLen: int, channels: int, m: int)
    requires channels >= 1 && segLen >= 1 && segLen % channels == 0
    requires from % channels == 0 && rawLength % channels == 0
    requires 0 <= m < |SegmentsFrom(from, rawLength, segLen)|
    ensures var s := SegmentsFrom(from, rawLength, segLen)[m];
      s.start % channels == 0 && s.len % channels == 0 && End(s) <= rawLength
    decreases m
  {
    if m == 0 {
      ModDiff(rawLength, from, channels);
    } else {
      ModSum(from, segLen, channels);
      SegmentsAligned(from + segLen, rawLength, segLen, channels, m - 1);
    }
  }

  lemma ModSum(a: int, b: int, d: int)
    requires d >= 1 && a % d == 0 && b % d == 0
    ensures (a + b) % d == 0
  {
    DivModSplit(a, d);
    DivModSplit(b, d);
    DivModUnique(a + b, d, a / d + b / d, 0);
  }

  lemma ModDiff(a: int, b: int, d: int)
    requires d >= 1 && a % d == 0 && b % d == 0
    ensures (a - b) % d == 0
  {
    DivModSplit(a, d);
    DivModSplit(b, d);
    DivModUnique(a - b, d, a / d - b / d, 0);
  }

  /**
   * With the aligned length, a buffer of whole three-channel pixels, and
   * the scales `segmentRaw` passes, constructing every segment succeeds:
   * no sample reads outside its segment, let alone past the buffer.
   */
  lemma AlignedSegmentsConstruct<T>(image1d: seq<T>, channels: int, segLen: int, conv: Convert<T>, m: int)
    requires channels >= 3 && segLen >= 1 && |image1d| >= 1 && |image1d| % channels == 0
    requires 0 <= m < |SegmentsFrom(0, |image1d|, AlignedSegLen(segLen, channels))|
    ensures var s := SegmentsFrom(0, |image1d|, AlignedSegLen(segLen, channels))[m];
      s.start >= 0 && s.len >= 1 && NewSegment(image1d, channels, s.len, s.start, 1, 16, conv).Success?
  {
    var l := AlignedSegLen(segLen, channels);
    var s := SegmentsFrom(0, |image1d|, l)[m];
    SegmentsAligned(0, |image1d|, l, channels, m);
    SegmentStartsAbove(0, |image1d|, l, m);
    SegmentInside(image1d, channels, s, 1);
    SegmentInside(image1d, channels, s, 16);
  }

  /** The positions of one whole-pixel segment all read inside the buffer. */
  lemma SegmentInside<T>(image1d: seq<T>, channels: int, s: Span, scale: int)
    requires channels >= 3 && scale >= 1 && s.start >= 0 && s.len >= 0 && End(s) <= |image1d|
    requires s.len % channels == 0
    ensures channels * scale >= 1
    ensures ReadsInside(Positions(s.start, End(s), channels * scale), |image1d|)
  {
    var step := channels * scale;
    MulAtLeast(channels, scale);
    DivModUnique(step, channels, scale, 0);
    var pos := Positions(s.start, End(s), step);
    forall m | 0 <= m < |pos|
      ensures 0 <= pos[m] && pos[m] + 2 < |image1d|
    {
      SampleInside(|image1d|, channels, s, step, m);
    }
  }

  /** Sample m of a whole-pixel segment reads slots inside the segment, hence inside the buffer. */
  lemma SampleInside(size: int, channels: int, s: Span, step: int, m: int)
    requires channels >= 3 && step >= 1 && step % channels == 0
    requires s.start >= 0 && s.len >= 0 && End(s) <= size && s.len % channels == 0
    requires 0 <= m < |Positions(s.start, End(s), step)|
    ensures var p := Positions(s.start, End(s), step)[m]; 0 <= p && p + 2 < size
  {
    PositionAt(s.start, End(s), step, m);
    assert End(s) - s.start == s.len;
    AlignedReadsInSegment(s.start, End(s), channels, step, m);
  }

  // ---------------------------------------------------------------------
  // Planes that start with default samples.

  /**
   * `resize` followed by `push_back` (main.cpp:40, 48) leaves segLen / yScale
   * default samples in front of the converted ones: for a one-pixel
   * segment the luma plane holds four samples, the first a default one.
   */
  lemma ResizedPlaneHasPrefix<T>(image1d: seq<T>, conv: Convert<T>)
    requires |image1d| == 3
    ensures NewSegment(image1d, 3, 3, 0, 1, 16, conv).Success?
    ensures var y := NewSegment(image1d, 3, 3, 0, 1, 16, conv).value.y;
      |y| == 4 && y[0] == conv.zero && y[3] == conv.luma(image1d[0], image1d[1], image1d[2])
  {
    assert Positions(3, 3, 3) == [];
    assert Positions(0, 3, 3) == [0];
    assert Positions(0, 3, 48) == [0];
  }

  /**
   * The constructor with the planes reserved rather than resized: each plane
   * holds exactly one sample per position.
   */
  function NewSegmentReserved<T>(image1d: seq<T>, channels: int, segLen: int, index: int, yScale: int, cScale: int, conv: Convert<T>)
    : (r: Result<Segment<T>, SegmentError>)
    requires channels >= 1 && yScale >= 1 && cScale >= 1 && segLen >= 0 && index >= 0
    ensures r.Success? ==> |r.value.y| == CeilDiv(segLen, channels * yScale) && |r.value.cb| == CeilDiv(segLen, channels * cScale)
    ensures r.Success? <==> NewSegment(image1d, channels, segLen, index, yScale, cScale, conv).Success?
  {
    var ys := Positions(index, index + segLen, channels * yScale);
    var cs := Positions(index, index + segLen, channels * cScale);
    PositionCount(index, index + segLen, channels * yScale);
    PositionCount(index, index + segLen, channels * cScale);
    if |image1d| == 0 then Failure(EmptyImage)
    else if !ReadsInside(ys, |image1d|) || !ReadsInside(cs, |image1d|) then Failure(OutOfRange)
    else Success(Segment(Plane(image1d, ys, conv.luma), Plane(image1d, cs, conv.blue), Plane(image1d, cs, conv.red)))
  }

  /** The reserved planes are the resized ones without their default prefix. */
  lemma ReservedDropsPrefix<T>(image1d: seq<T>, channels: int, segLen: int, index: int, yScale: int, cScale: int, conv: Convert<T>)
    requires channels >= 1 && yScale >= 1 && cScale >= 1 && segLen >= 0 && index >= 0
    requires NewSegment(image1d, channels, segLen, index, yScale, cScale, conv).Success?
    ensures var s := NewSegment(image1d, channels, segLen, index, yScale, cScale, conv).value;
      var t := NewSegmentReserved(image1d, channels, segLen, index, yScale, cScale, conv).value;
      && t.y == s.y[segLen / yScale..] && t.cb == s.cb[segLen / cScale..] && t.cr == s.cr[segLen / cScale..]
  {
  }
}

=== FILE: truncation.dfy ===
/**
 * The frame loop of `main` (src/main.cpp:233-240): the spectrum of the
 * whole curve-ordered image is kept, and frame i zeroes every coefficient
 * from the cutoff size - size * i / frames on before transforming back.
 * The coefficients are complex numbers; here they are any type with a zero.
 */
module Truncation {
  import opened Bits

  /** The number of frames, twenty seconds at sixty frames each (main.cpp:233). */
  const Frames: int := 20 * 60

  /** The first coefficient frame i zeroes (main.cpp:236-237). */
  function Cutoff(size: nat, i: nat, frames: int): int
    requires frames >= 1
  {
    size - size * i / frames
  }

  /** Frame 0 keeps the whole spectrum. */
  lemma CutoffAtStart(size: nat, frames: int)
    requires frames >= 1
    ensures Cutoff(size, 0, frames) == size
  {
  }

  /** Before the last frame the cutoff lies in [1, size] for a non-empty spectrum. */
  lemma CutoffRange(size: nat, i: nat, frames: int)
    requires frames >= 1 && i < frames && size >= 1
    ensures 1 <= Cutoff(size, i, frames) <= size
  {
    MulLt(i, frames, size);
    DivBelow(size * i, frames, size);
  }

  /** Later frames keep fewer coefficients. */
  lemma CutoffMonotone(size: nat, i: nat, j: nat, frames: int)
    requires frames >= 1 && i <= j
    ensures Cutoff(size, j, frames) <= Cutoff(size, i, frames)
  {
    MulLe(i, j, size);
    DivMonotone(size * i, size * j, frames);
  }

  lemma DivMonotone(a: int, b: int, d: int)
    requires a <= b && d >= 1
    ensures a / d <= b / d
  {
    DivModSplit(a, d);
    DivModSplit(b, d);
    if a / d > b / d {
      MulLe(b / d + 1, a / d, d);
    }
  }

  /** The spectrum with every coefficient from `cut` on set to zero. */
  function ZeroFrom<T>(b: seq<T>, cut: int, zero: T): (r: seq<T>)
    ensures |r| == |b|
  {
    seq(|b|, j requires 0 <= j < |b| => if j < cut then b[j] else zero)
  }

  /**
   * Models the zeroing loop (main.cpp:237-239): entries below the cutoff
   * are unchanged, entries from the cutoff on become zero.  The counter is
   * an `int` compared with the unsigned `b.size()`, so a negative cutoff is
   * converted to a huge unsigned value and the loop does not run at all.
   */
  method ZeroTail<T>(b0: seq<T>, cut: int, zero: T) returns (b: seq<T>)
    ensures |b| == |b0|
    ensures cut < 0 ==> b == b0
    ensures forall j :: 0 <= j < |b0| && j < cut ==> b[j] == b0[j]
    ensures cut >= 0 ==> forall j :: 0 <= j < |b0| && cut <= j ==> b[j] == zero
  {
    b := b0;
    var j := if cut < 0 then |b| else cut;
    while j < |b|
      invariant |b| == |b0| && 0 <= j && (cut < 0 ==> b == b0) && (cut >= 0 ==> cut <= j)
      invariant forall q :: 0 <= q < |b0| && (q < cut || j <= q) ==> b[q] == b0[q]
      invariant cut >= 0 ==> forall q :: 0 <= q < |b0| && cut <= q < j ==> b[q] == zero
    {
      b := b[j := zero];
      j := j + 1;
    }
  }

  /** Zeroing twice from two cutoffs zeroes from the smaller one. */
  lemma ZeroFromTwice<T>(b: seq<T>, cut1: int, cut2: int, zero: T)
    ensures ZeroFrom(ZeroFrom(b, cut1, zero), cut2, zero) == ZeroFrom(b, Min(cut1, cut2), zero)
  {
  }

  /**
   * Models the frame loop (main.cpp:234-240): each frame starts from the
   * previous frame's truncated spectrum `c`, zeroes from its cutoff, and
   * hands the result to the inverse transform.  Because the cutoffs only
   * fall, frame i sees exactly the original spectrum truncated at its own
   * cutoff.
   */
  method FrameSpectra<T>(c0: seq<T>, frames: int, zero: T) returns (spectra: seq<seq<T>>)
    requires frames >= 1
    ensures |spectra| == frames
    ensures forall i :: 0 <= i < frames ==> spectra[i] == ZeroFrom(c0, Cutoff(|c0|, i, frames), zero)
  {
    var c := c0;
    spectra := [];
    var i := 0;
    while i < frames
      invariant 0 <= i <= frames && |spectra| == i && |c| == |c0|
      invariant forall f :: 0 <= f < i ==> spectra[f] == ZeroFrom(c0, Cutoff(|c0|, f, frames), zero)
      invariant c == if i == 0 then c0 else ZeroFrom(c0, Cutoff(|c0|, i - 1, frames), zero)
    {
      var b := c;
      var cut := |b| - |b| * i / frames;
      if |c0| >= 1 {
        CutoffRange(|c0|, i, frames);
      }
      b := ZeroTail(b, cut, zero);
      c := b;
      assert b == ZeroFrom(c0, Cutoff(|c0|, i, frames), zero) by {
        if i > 0 {
          CutoffMonotone(|c0|, i - 1, i, frames);
          ZeroFromTwice(c0, Cutoff(|c0|, i - 1, frames), cut, zero);
        }
      }
      spectra := spectra + [b];
      i := i + 1;
    }
  }

  /** The first frame reproduces the untouched spectrum. */
  lemma FirstFrameUntouched<T>(c0: seq<T>, zero: T)
    ensures ZeroFrom(c0, Cutoff(|c0|, 0, Frames), zero) == c0
  {
  }
}
